=== FILE: README.md ===
# Pyxelate core in Dafny

A model of the integer and index-level core of `Pyx`, the scikit-learn style
transformer of pyxelate that turns an image into pixel art. Every model
member is a pure function, a lemma about one, or a short method on immutable
sequences. The model covers:

- the constructor's argument checks (`Pyx.__init__`) and the size rule
  `_get_size`;
- the two checks at the start of `transform`, and the shape arithmetic of the
  whole `transform` pipeline: resize to `target * sobel**depth`, `depth`
  rounds of `_pyxelate`, then the upscale repeat;
- `_pad` in both of its modes, edge padding and the crop that undoes it;
- `_dilate`, as a merge of a given dilated image into the low-alpha pixels of
  the padded image;
- the palette mapping `self.colors[...]`, with row-major flattening and
  reshaping;
- the naive dithering walk, a stride-2 loop over the flat pixel list with a
  row shift on even widths;
- the Floyd–Steinberg-like scan over per-colour probability maps, including
  its border fix-ups;
- the Atkinson-like scan over a padded colour buffer, including its final
  crop;
- binarisation and attachment of the alpha mask, and the `np.repeat` upscale;
- quantisation of automatically found palette colours to multiples of
  `COLOR_QUANT`, and the duplicate-colour check.

Floating-point values are idealised as Dafny `real`s. Probabilities, cluster
means, the per-pixel prediction of the fitted mixture model and the dilated
image are parameters, because they come from scikit-learn and scikit-image
calls that are outside the model.

Modules:

- `Wrappers`: `Option` and `Result`.
- `Arith`: small division and remainder lemmas.
- `Vectors`: `np.argmax` and element-wise vector operations.
- `Raster`: `h`×`w` images of vectors, with totals per component.
- `Padding`: `_pad`.
- `Settings`: `__init__`, `_get_size` and the `transform` entry checks.
- `Pipeline`: output sizes.
- `Naive`, `Floyd`, `Atkinson`: the three dithering modes.
- `Assembly`: palette lookup, reshape, alpha mask and upscale.
- `Palette`: colour quantisation and duplicates.
- `Alpha`: `_dilate`.
- `Transform`: the Floyd and Atkinson branches from the probability maps or the padded buffer to the palette colours.

Some details of the code are easy to misread. The model follows the code in
each of them:

- `_pad`'s docstring says it pads an image that is not divisible by the
  tile size (`pyxelate/pyx.py:241`), but the padding does not always make a
  length divisible.
  - Remainder 1 gets two extra rows and any other remainder gets one, so
    the padded length divides only for remainder 0, for remainder 1 when the
    tile size is 3, and for remainder `s - 1` when `s >= 3`.
  - With `sobel=2` an odd length stays odd (`Padding.PaddedDivisible`,
    `Pipeline.TileCountDefined`).
  - `transform` still works because it resizes to a multiple of
    `sobel**depth` first (`Pipeline.ShrinkExact`).
- The naive mode substitutes the runner-up colour when the runner-up's own
  probability is high, whatever the winner's. A visited pixel takes the
  second-best colour when that colour's probability exceeds `1/(k+1)` on odd
  rows or `1/(1.33k+1)` on even rows (`Naive.Choice`).
- The Atkinson buffer is padded by one leading column as well as two
  trailing rows and columns.
  - The six targets of a step are right, two right, lower-left, directly
    below, lower-right and two below. So the pixel directly below is
    included, as in Atkinson's scheme.
  - Six eighths of the residual are passed on
    (`Atkinson.StepDiffusesThreeQuarters`).
- Alpha binarisation runs two masked assignments in sequence: first
  `>= alpha` becomes 255, then `< alpha` becomes 0. So with a threshold above
  255 every pixel ends at 0 (`Assembly.BinarizeAlpha`).

## Model

| member | source | states |
|---|---|---|
| Settings.Construct | pyxelate/pyx.py:107-140 | construction succeeds exactly for acceptable arguments, and the result then satisfies the object invariants. Specifically: a height or width together with a factor is the geometry conflict; a reported too-small palette or unknown dither name is one; the palette, alpha and boost are kept; a scalar upscale is used for both axes; the "depth too high" flag is raised exactly for depth above 2; height, width and factor are stored as absent exactly when not given and otherwise as the whole part of the argument; sobel and depth are stored as given; each of the names "naive", "bayer", "floyd" and "atkinson" selects its own method, and an absent or "none" dither selects none |
| Settings.ToDither | pyxelate/pyx.py:137-138 | an accepted dither name selects no dithering exactly when it is absent or "none", and each other name selects its own method |
| Settings.TruncOpt | pyxelate/pyx.py:116-118 | an argument that is absent or at least 1 is kept as absent exactly when absent, and otherwise as the whole part of its value |
| Settings.ConstructReportsFirstFailure | pyxelate/pyx.py:109-140 | the constructor raises error `e` if and only if check `e` fails and every check it makes before `e` passes |
| Settings.AcceptableIffNoFailure | pyxelate/pyx.py:109-140 | the arguments are acceptable exactly when none of the ten checks fails |
| Settings.Number.Trunc | pyxelate/pyx.py:116-118 | Python's `int(x)` of a nonnegative number is its floor |
| Settings.DefaultsAccepted | pyxelate/pyx.py:107-109 | the default arguments construct an object with upscale (1, 1) and no dithering |
| Settings.GetSize | pyxelate/pyx.py:146-157 | explicit height and width are returned as given; a single dimension scales the other by the aspect ratio, rounded down; a factor divides both sides, rounded down; otherwise the size is unchanged |
| Settings.ScaledFloor | pyxelate/pyx.py:151-153 | the scaled side is the floor of `target * other / original` |
| Settings.CheckTransform | pyxelate/pyx.py:283-290 | `transform` proceeds exactly when the model is fitted and the image has more pixels than the palette has colours; an unfitted model is always the first error; a fitted model with too few pixels is the too-many-colours error; on success the target size is `_get_size`'s |
| Padding.Added | pyxelate/pyx.py:245-246 | an axis gets no border when divisible, two cells when the remainder is 1, one cell otherwise |
| Padding.NoPadWhenDivisible | pyxelate/pyx.py:245-246 | an axis already divisible by the tile size gets no border on either side |
| Padding.EdgeExtend | pyxelate/pyx.py:247 | along one axis, every cell of the extended sequence is the nearest original cell |
| Padding.Pad | pyxelate/pyx.py:243-247 | the padded image is a rectangle whose sides grow by the added border |
| Padding.PadCopiesNearest | pyxelate/pyx.py:243-247 | every padded pixel equals the nearest pixel of the original image ("edge" mode) |
| Padding.PadKeepsInterior | pyxelate/pyx.py:243-247 | the original image sits unchanged in the padded one, shifted by the leading border |
| Padding.Slice | pyxelate/pyx.py:250-251 | a Python slice `[start:-1]` or `[start:]` keeps the elements from `start` up to the dropped last element |
| Padding.Unpad | pyxelate/pyx.py:248-251 | on an image of padded size, the crop has the original size, and pixel `(i, j)` is the padded pixel shifted by the leading border |
| Padding.UnpadPad | pyxelate/pyx.py:240-251 | cropping a padded image gives back the original, for every tile size |
| Padding.PaddedDivisible | pyxelate/pyx.py:233-247 | the padded length is a multiple of the tile size if and only if the remainder is 0, or 1 with tile size 3, or `s - 1` with `s >= 3` |
| Padding.PaddedByThree | pyxelate/pyx.py:256 | with 3×3 tiles every padded length divides into tiles |
| Pipeline.TileCount | pyxelate/pyx.py:233-237 | one `_pyxelate` round is defined exactly when the padded length divides, and then yields one pixel per tile |
| Pipeline.TileCountExact | pyxelate/pyx.py:237-238 | a multiple of the tile size shrinks by exactly that factor |
| Pipeline.ShrinkExact | pyxelate/pyx.py:299-315 | resizing to `m * sobel**depth` makes all `depth` rounds defined, and they end at exactly `m` |
| Pipeline.Shrink | pyxelate/pyx.py:311-315 | with a tile size of 1 every round keeps the axis length |
| Pipeline.TileCountShrinks | pyxelate/pyx.py:233-247 | with tiles of at least 2, one round never lengthens an axis |
| Pipeline.ShrinkNoLonger | pyxelate/pyx.py:311-315 | with tiles of at least 2, the `depth` rounds never lengthen an axis |
| Pipeline.TileCountDefined | pyxelate/pyx.py:233-247 | for tile sizes of at least 2, one round accepts an axis length if and only if its remainder is 0, or 1 with tile size 3, or one less than a tile size of at least 3 |
| Pipeline.TileCountThree | pyxelate/pyx.py:108 | with the default `sobel=3` every length is accepted |
| Pipeline.AxisSize | pyxelate/pyx.py:299-315 | after resizing, shrinking and repeating, an axis ends at the target length times the upscale factor |
| Pipeline.OutputSize | pyxelate/pyx.py:283-406 | `transform` returns an image exactly when its entry checks pass, the target size has no zero side and both upscale factors are integers; each failure is reported as the first of these that fails; the size is then `_get_size` times the upscale factors |
| Vectors.ArgMax | pyxelate/pyx.py:329 | the index of a maximal entry, and the first one among ties, as `np.argmax` |
| Vectors.SameOrderSameArgMax | pyxelate/pyx.py:362-363 | two vectors that rank their entries alike have the same argmax |
| Vectors.ArgMaxScale | pyxelate/pyx.py:362-363 | dividing the probabilities by 16 does not change the chosen colour |
| Naive.SecondIsRunnerUp | pyxelate/pyx.py:329-332 | when the runner-up probability is positive, the runner-up differs from the best colour, and every other colour is at most as probable as the runner-up, which is at most as probable as the best |
| Naive.Zeroed | pyxelate/pyx.py:331 | zeroing the best entry sets it to 0 and keeps every other entry |
| Naive.Second | pyxelate/pyx.py:332 | the second-best index is a colour of the row, at least as probable as every colour other than the best |
| Naive.Margin | pyxelate/pyx.py:333-334 | the margin is at least the probability of every colour other than the best, and is 0 or the probability of one of those colours |
| Naive.Threshold | pyxelate/pyx.py:333-334 | both thresholds lie in `(0, 1]`, and the even-row threshold is at most the odd-row one |
| Naive.SubstitutionTakesRunnerUp | pyxelate/pyx.py:329-344 | a pixel that does not keep its most probable colour takes the runner-up, a different colour with positive probability that is at least as probable as every colour but the best |
| Naive.ShiftedIsCandidate | pyxelate/pyx.py:335-339 | every even loop counter reaches a checkerboard cell in its own row, and that cell leads back to the counter |
| Naive.CandidateIsShifted | pyxelate/pyx.py:335-339 | every checkerboard cell is reached from an even counter at or before it |
| Naive.ReachedIffCandidate | pyxelate/pyx.py:335-339 | the cells the loop can reach are exactly the checkerboard cells |
| Naive.VisitNext | pyxelate/pyx.py:336-339 | advancing the counter by two visits exactly one more cell, the one it reaches |
| Naive.Visit | pyxelate/pyx.py:337-344 | one loop pass gives the reached cell its reference colour when it still holds its best colour, and changes no other cell |
| Naive.Dither | pyxelate/pyx.py:326-344 | every output pixel is the palette colour of the reference choice: the runner-up on a checkerboard cell whose runner-up probability clears its row's threshold, else the best colour |
| Naive.NoAdjacentCandidates | pyxelate/pyx.py:335-340 | no two horizontally adjacent pixels are both substitution candidates |
| Naive.SubstitutedIsCandidate | pyxelate/pyx.py:340-344 | a pixel that does not get its best colour is a checkerboard cell whose runner-up cleared the threshold |
| Raster.AddAt | pyxelate/pyx.py:365 | `P[y, x] += e` adds `e` at that pixel and changes no other pixel |
| Raster.MassAddAt | pyxelate/pyx.py:365 | adding `e` at one pixel raises each component's image total by that component of `e` |
| Raster.AddAllFrame | pyxelate/pyx.py:388-393 | adding `e` at each target in turn leaves every non-target pixel unchanged |
| Raster.MassAddAll | pyxelate/pyx.py:388-393 | adding `e` at each target in turn raises each component's total by `e` once per target |
| Raster.AddAllAt | pyxelate/pyx.py:388-393 | when no target repeats, each target ends at its old vector plus exactly `e` |
| Raster.AddAll | pyxelate/pyx.py:388-393 | adding a vector to a list of in-bounds targets keeps the shape of the maps |
| Floyd.SpreadFrame | pyxelate/pyx.py:365-368 | the four diffusion writes change no pixel but the right, lower-left, lower and lower-right neighbours |
| Floyd.SpreadShares | pyxelate/pyx.py:365-368 | each of those four neighbours receives exactly its own share |
| Floyd.Spread | pyxelate/pyx.py:365-368 | writing the four shares keeps the shape of the maps |
| Floyd.Shares | pyxelate/pyx.py:365-368 | the shares are 7, 3, 5 and 1 times the error, component by component |
| Floyd.MassSpread | pyxelate/pyx.py:365-368 | each of the four shares arrives in full |
| Floyd.Residue | pyxelate/pyx.py:362-364 | the passed-on error is the pixel's vector in sixteenths, with the chosen colour's component set to 0 |
| Floyd.Step | pyxelate/pyx.py:362-363 | an interior step picks the most probable colour of the pixel |
| Floyd.StepFrame | pyxelate/pyx.py:362-368 | a step changes no pixel but the four neighbours |
| Floyd.StepShares | pyxelate/pyx.py:362-368 | the right, lower-left, lower and lower-right neighbours gain 7, 3, 5 and 1 times the residue |
| Floyd.StepConservesMass | pyxelate/pyx.py:362-368 | each step passes on exactly the pixel's own vector with the chosen component removed (7+3+5+1 sixteenths) |
| Floyd.WalkRow | pyxelate/pyx.py:361-368 | the interior steps of one row, left to right, keep the raster's shape and never write to the top-left pixel |
| Floyd.Walk | pyxelate/pyx.py:359-368 | reference definition of the diffusion: the interior steps of the first `m` rows, each row left to right, keep the raster's shape, and the top-left pixel keeps its maps through the whole walk |
| Floyd.WalkNarrow | pyxelate/pyx.py:359-368 | with at most two columns, or before the first row, the walk moves nothing |
| Floyd.InteriorStep | pyxelate/pyx.py:361-368 | one pass of the inner loop records the argmax of the current pixel, performs exactly one reference step, and leaves earlier pixels and other entries of `res` alone |
| Floyd.InteriorRow | pyxelate/pyx.py:360-368 | one pass of the outer loop performs the reference walk of that row, leaves earlier rows alone, and leaves every interior pixel of the row holding the argmax of its maps |
| Floyd.InteriorAdvance | pyxelate/pyx.py:361-368 | one pass of the inner loop extends the row's reference walk by one column, and every pixel of the row visited so far still holds the argmax of its maps |
| Floyd.InteriorNext | pyxelate/pyx.py:360-368 | one pass of the outer loop extends the reference walk by one row, and every row visited so far holds the argmax of its maps at each interior pixel |
| Floyd.Interior | pyxelate/pyx.py:359-368 | the maps after the raster walk are exactly the reference walk's, and every interior pixel above the last row holds the argmax of its final maps |
| Floyd.Borders | pyxelate/pyx.py:369-376 | after the edge and last-row fix-ups of an index image whose interior is done, every pixel holds the argmax of its maps |
| Floyd.Edges | pyxelate/pyx.py:369-373 | the first and last column of every row get the plain argmax, and other cells are unchanged |
| Floyd.LastRow | pyxelate/pyx.py:374-376 | the inner cells of the last row get the plain argmax, and every other cell is unchanged |
| Floyd.Scan | pyxelate/pyx.py:359-376 | the final maps are the reference walk's; every pixel of the result is a palette index and the argmax of its final maps; the first pixel gets the argmax of its initial maps |
| Atkinson.TargetsLater | pyxelate/pyx.py:383-393 | a step never writes to a pixel already classified or to its own pixel |
| Atkinson.Residual | pyxelate/pyx.py:387 | the residual is one eighth of the pixel minus the chosen mean, channel by channel |
| Atkinson.TargetsDistinct | pyxelate/pyx.py:388-393 | the six targets of a step are six different pixels |
| Atkinson.StepFrame | pyxelate/pyx.py:387-393 | one step changes no pixel but its six targets |
| Atkinson.StepTargets | pyxelate/pyx.py:387-393 | each of the six targets gains exactly the residual |
| Atkinson.Step | pyxelate/pyx.py:387-393 | the six writes keep the shape of the buffer |
| Atkinson.Visit | pyxelate/pyx.py:385-393 | a visit is a step with the mean of the class predicted for the pixel's current colour, and keeps the shape of the buffer |
| Atkinson.StepDiffusesThreeQuarters | pyxelate/pyx.py:387-393 | one step adds three quarters of the difference between the pixel and its chosen mean to each channel's buffer total |
| Atkinson.Crop | pyxelate/pyx.py:395 | the crop keeps the first `h` rows and columns `1 .. w` |
| Atkinson.WalkRow | pyxelate/pyx.py:384-393 | the visits of one row, left to right, keep the buffer's shape and never write to the first original pixel |
| Atkinson.Walk | pyxelate/pyx.py:383-393 | reference definition of the diffusion: the visits of the first `m` rows, each row left to right, keep the buffer's shape, and the first original pixel keeps its colour through the whole walk |
| Atkinson.ScanStep | pyxelate/pyx.py:385-393 | one pass of the inner loop classifies the current pixel from its current colour, performs exactly one reference visit, and leaves earlier pixels and other entries of `res` alone |
| Atkinson.ScanAdvance | pyxelate/pyx.py:384-393 | one pass of the inner loop extends the row's reference walk by one column, and every pixel of the row visited so far still holds the prediction for its colour |
| Atkinson.ScanRow | pyxelate/pyx.py:383-393 | one pass of the outer loop performs the reference walk of that row, leaves earlier rows alone, and leaves every pixel of the row holding the prediction for its colour |
| Atkinson.RowsNext | pyxelate/pyx.py:383-393 | one pass of the outer loop extends the reference walk by one row, and every row visited so far holds the prediction for each pixel's colour |
| Atkinson.Rows | pyxelate/pyx.py:383-393 | the buffer after the raster walk is exactly the reference walk's, and every original pixel of `res` holds the prediction for its final buffer colour |
| Atkinson.Scan | pyxelate/pyx.py:381-395 | the final buffer is the reference walk's; every output index is a cluster index and the prediction for its pixel's final buffer colour; the first pixel is classified on its original colour |
| Assembly.MapColors | pyxelate/pyx.py:325 | output `i` is the palette entry named by index `i` |
| Assembly.MapColorsInPalette | pyxelate/pyx.py:377 | every output colour is a palette colour, and without duplicate palette entries equal outputs come from equal indices |
| Assembly.Flatten | pyxelate/pyx.py:377 | flattening an `h`×`w` image gives `h*w` entries |
| Assembly.FlattenAt | pyxelate/pyx.py:377 | pixel `(y, x)` sits at position `y*w + x` of the flat list |
| Assembly.Reshape | pyxelate/pyx.py:398 | reshaping `h*w` entries gives an `h`×`w` image |
| Assembly.InRange | pyxelate/pyx.py:398 | a pixel position inside an `h`×`w` image is below `h*w` |
| Assembly.ReshapeFlatten | pyxelate/pyx.py:398 | reshaping a flattened image gives the image back |
| Assembly.FlattenReshape | pyxelate/pyx.py:398 | flattening a reshaped list gives the list back |
| Assembly.BinarizeAlpha | pyxelate/pyx.py:401-402 | a binarised alpha is 0 or 255, and is 255 exactly when the value reaches the threshold and the threshold is at most 255 |
| Assembly.BinarizeMask | pyxelate/pyx.py:401-402 | the binarised mask has the shape of the mask and binarises every value |
| Assembly.BinarizeMaskLevels | pyxelate/pyx.py:401-402 | every binarised mask value is 0 or 255, and is 255 exactly where the alpha reached a threshold of at most 255 |
| Assembly.Attach | pyxelate/pyx.py:403 | attaching the mask keeps every pixel's colour |
| Assembly.AttachBinarized | pyxelate/pyx.py:401-403 | every attached alpha is 0 or 255, and is 255 exactly where the resized alpha reached a threshold of at most 255 |
| Assembly.RepeatEach | pyxelate/pyx.py:406 | repeating each element `u` times multiplies the length by `u` |
| Assembly.RepeatEachAt | pyxelate/pyx.py:406 | element `i` of the repetition is element `i div u` of the input |
| Assembly.RepeatEachSample | pyxelate/pyx.py:406 | every copy of element `k` equals it, so sampling every `u`-th element undoes the repetition |
| Assembly.Upscale | pyxelate/pyx.py:406 | the upscaled image has `h*u0` rows of `w*u1` pixels |
| Assembly.UpscaleAt | pyxelate/pyx.py:406 | output pixel `(i, j)` shows input pixel `(i div u0, j div u1)` |
| Assembly.UpscaleBlock | pyxelate/pyx.py:406 | every input pixel fills its whole `u0`×`u1` block of the output |
| Palette.Clip | pyxelate/pyx.py:188 | clipping lands in `[0, 255]` and leaves values in range unchanged |
| Palette.QuantizeChannel | pyxelate/pyx.py:188-190 | every quantised channel is 0, 255 or a multiple of 8 between 16 and 232 |
| Palette.QuantizeLevelIsLevel | pyxelate/pyx.py:188-190 | the same for the quantisation of an integer level |
| Palette.QuantizeLevelRanges | pyxelate/pyx.py:188-190 | a level below 16 quantises to 0, one from 240 on to 255, and one in between to the multiple of 8 at or just below it |
| Palette.QuantizeLevel | pyxelate/pyx.py:188-190 | a quantised level lies between 0 and 255 |
| Palette.QuantizeLevelIdempotent | pyxelate/pyx.py:188-190 | quantising a quantised level changes nothing |
| Palette.QuantizeLevelMonotone | pyxelate/pyx.py:188-190 | a brighter level never quantises darker |
| Palette.ChannelIsLevelOfFloor | pyxelate/pyx.py:188 | the float computation equals the integer quantisation of the channel scaled to 255 and rounded down |
| Palette.Quantize | pyxelate/pyx.py:185-190 | the palette has one quantised triple per cluster mean |
| Palette.QuantizeFixesPalette | pyxelate/pyx.py:188-190 | quantising a channel of a palette colour again leaves it unchanged |
| Palette.DistinctSnoc | pyxelate/pyx.py:192 | the distinct colours of a palette are those of its prefix plus its last colour |
| Palette.DistinctCount | pyxelate/pyx.py:192 | a palette has at most as many distinct colours as entries, and exactly as many if and only if no colour repeats |
| Palette.RedundantIffDuplicate | pyxelate/pyx.py:192-193 | the "redundant colours" warning is raised exactly when two palette entries are equal |
| Palette.Redundant | pyxelate/pyx.py:192-193 | the warning flag is set exactly when some colour occurs twice in the palette |
| Alpha.Merge | pyxelate/pyx.py:260-262 | pixels below the alpha threshold take the dilated colour and keep their alpha; all others are unchanged |
| Alpha.MergedShape | pyxelate/pyx.py:255-263 | padding for 3×3 tiles, merging and removing the padding gives back an image of the original size |
| Alpha.MergedAt | pyxelate/pyx.py:255-263 | each pixel after padding, merging and removing the padding is the original pixel, or, when its alpha is below the threshold, the dilated colour from its padded position with its own alpha |
| Alpha.Dilate | pyxelate/pyx.py:253-263 | `_dilate` keeps the image size and every alpha value; it keeps every pixel at or above the threshold and gives every other pixel the dilated colour at its padded position |
| Transform.FlatIndexes | pyxelate/pyx.py:377 | a flattened index image with entries below the palette size indexes the palette |
| Transform.Paint | pyxelate/pyx.py:377 | `self.colors[res.reshape(h * w)]` yields `h*w` palette colours, and position `y*w + x` holds the colour that pixel `(y, x)` names |
| Transform.FloydColors | pyxelate/pyx.py:352-377 | the Floyd branch yields `h*w` palette colours; its final maps are the reference walk's, pixel `(y, x)` at position `y*w + x` gets the colour with the most mass in its final maps, and the first pixel gets its most probable colour |
| Transform.AtkinsonColors | pyxelate/pyx.py:378-396 | the Atkinson branch yields `h*w` palette colours; its final buffer is the reference walk's, and pixel `(y, x)` at position `y*w + x` gets the colour of the prediction for its final buffer colour |
| Transform.Finish | pyxelate/pyx.py:398-406 | the finished image has `h*u0` rows of `w*u1` pixels |
| Transform.FinishAt | pyxelate/pyx.py:398-406 | finished pixel `(i, j)` is flat pixel `(i div u0) * w + j div u1` |

## Left out

- The Bayesian Gaussian mixture (`BGM`, `fit`, `predict`, `predict_proba`,
  `means_`) is a scikit-learn model. Its outputs are parameters: probability
  rows, cluster means and a `classify` function.
- The `"none"` mode is `self.colors[probs]` on given labels, which is
  `Assembly.MapColors`. The labels themselves come from the mixture model.
- The Bayer mode needs `scipy.ndimage.convolve` with reflect boundaries,
  which is a library call, so it is not modelled.
- The power `1/6` applied to the Floyd probability maps is floating-point
  exponentiation. The maps after it are the input of `Floyd.Scan`.
- The reflect padding of the Atkinson buffer is a numpy primitive. The padded
  buffer is the input of `Atkinson.Scan`.
- `_pyxelate`'s pixel values need the Sobel gradient-weighted tile average,
  which is an image-library call; only its shape is modelled.
- `_median`, `resize`, `equalize_adapthist` and the HSV conversions are
  image-library calls.
- The dilation inside `_dilate` is also a library call, so it is the `alter`
  parameter.
- The HSV saturation boost before quantisation and the `SCALE_RGB` shift are
  floating-point colour conversion, and so is `_image_to_float`.
- `_image_to_int` for fixed palettes is float-to-int conversion of a
  user-given palette.
- Settings.GetSize: the height-only and width-only branches use exact
  rational division in place of Python's float division and truncation.
- Settings.Construct: `__init__` builds the mixture model and the palette
  cache; these are not modelled.
- Warnings are flags (`Config.depthWarning`, `Palette.Redundant`,
  `Settings.WarnDitherWithAlpha`) and are not emitted.
- Palette.Redundant compares the colour triples directly. The source
  compares their printed forms `f"{pc[0]}"`, and for integer triples those
  are equal exactly when the triples are.
- Pipeline.OutputSize: a fractional upscale factor, which the constructor
  accepts, is modelled as an error, because `np.repeat` rejects non-integer
  counts. A target size with a zero side is modelled as an error too. The
  source does not check it; the empty image reaches `resize` and the mixture
  model's prediction, whose exact failure is outside this model.
- The final conversion `astype(np.uint8)` is not modelled, and neither are
  the command-line scripts, file I/O and plotting.
- Images are sequences of rows. Images with a zero side are outside the
  model. `Naive.Dither` requires a width of at least 1, although at a zero
  width the source's loop runs zero times, and `Floyd.Scan` requires a
  height and width of at least 1. `Pipeline.OutputSize` reports a target
  with a zero side as `EmptyTarget` before any dithering.

=== FILE: alpha.dfy ===
/** `Pyx._dilate`: the colour of semi-transparent pixels is replaced by the
    colour of a 3×3 grey dilation of the padded image, to hide edge artefacts.
    The dilation (`skimage.morphology.dilation` per channel) is a library call
    and is the parameter `alter`: any image of the padded size. */
module Alpha {
  import opened Padding

  /** An RGBA pixel: a colour and its alpha value. */
  datatype Pixel<C> = Pixel(rgb: C, alpha: real)

  /** `X_[:, :, :3][mask < alpha] = alter[mask < alpha]` on the padded image. */
  function Merge<C>(Y: seq<seq<Pixel<C>>>, alter: seq<seq<C>>, t: real, h: nat, w: nat): (r: seq<seq<Pixel<C>>>)
    requires IsGrid(Y, h, w) && IsGrid(alter, h, w)
    ensures IsGrid(r, h, w)
    ensures forall i, j :: 0 <= i < h && 0 <= j < w ==>
      r[i][j].alpha == Y[i][j].alpha &&
      (Y[i][j].alpha < t ==> r[i][j].rgb == alter[i][j]) &&
      (Y[i][j].alpha >= t ==> r[i][j] == Y[i][j])
  {
    seq(h, i requires 0 <= i < h => seq(w, j requires 0 <= j < w =>
      if Y[i][j].alpha < t then Pixel(alter[i][j], Y[i][j].alpha) else Y[i][j]))
  }

  /** Height of the image padded for 3×3 tiles. */
  function PaddedHeight<C>(X: seq<seq<Pixel<C>>>): nat {
    |X| + Added(|X|, 3)
  }

  /** Width of the image padded for 3×3 tiles. */
  function PaddedWidth<C>(X: seq<seq<Pixel<C>>>): nat {
    Width(X) + Added(Width(X), 3)
  }

  /** Pad for 3×3 tiles, merge, remove the padding. */
  function Merged<C>(X: seq<seq<Pixel<C>>>, alter: seq<seq<C>>, t: real): seq<seq<Pixel<C>>>
    requires Rectangular(X) && IsGrid(alter, PaddedHeight(X), PaddedWidth(X))
  {
    Unpad(Merge(Pad(X, 3), alter, t, PaddedHeight(X), PaddedWidth(X)), 3, |X|, Width(X))
  }

  /** The merged image has the size of the original. */
  lemma MergedShape<C>(X: seq<seq<Pixel<C>>>, alter: seq<seq<C>>, t: real)
    requires Rectangular(X) && IsGrid(alter, PaddedHeight(X), PaddedWidth(X))
    ensures IsGrid(Merged(X, alter, t), |X|, Width(X))
  {
    var M := Merge(Pad(X, 3), alter, t, PaddedHeight(X), PaddedWidth(X));
    assert IsGrid(M, |X| + Added(|X|, 3), Width(X) + Added(Width(X), 3));
  }

  /** One pixel of the merged image: the original pixel, with the dilated
      colour from its padded position when its alpha is below the threshold. */
  lemma MergedAt<C>(X: seq<seq<Pixel<C>>>, alter: seq<seq<C>>, t: real, i: nat, j: nat)
    requires Rectangular(X) && IsGrid(alter, PaddedHeight(X), PaddedWidth(X))
    requires i < |X| && j < Width(X)
    ensures |Merged(X, alter, t)| == |X| && |Merged(X, alter, t)[i]| == Width(X)
    ensures Merged(X, alter, t)[i][j] ==
      if X[i][j].alpha < t then Pixel(alter[i + Before(|X|, 3)][j + Before(Width(X), 3)], X[i][j].alpha) else X[i][j]
  {
    var h, w := |X|, Width(X);
    var M := Merge(Pad(X, 3), alter, t, PaddedHeight(X), PaddedWidth(X));
    assert IsGrid(M, h + Added(h, 3), w + Added(w, 3));
    var bi, bj := i + Before(h, 3), j + Before(w, 3);
    PadKeepsInterior(X, 3, i, j);
    var p := M[bi][bj];
    UnpadAt(M, 3, h, w, i, j);
    assert Merged(X, alter, t) == Unpad(M, 3, h, w);
    assert Pad(X, 3)[bi][bj] == X[i][j];
  }

  /** `_dilate(X)`. The result has the original size, keeps every alpha
      value, keeps every pixel whose alpha reaches the threshold, and gives
      every other pixel the dilated colour at its padded position. */
  function Dilate<C>(X: seq<seq<Pixel<C>>>, alter: seq<seq<C>>, t: real): (r: seq<seq<Pixel<C>>>)
    requires Rectangular(X) && IsGrid(alter, PaddedHeight(X), PaddedWidth(X))
    ensures IsGrid(r, |X|, Width(X))
    ensures forall i, j :: 0 <= i < |X| && 0 <= j < Width(X) ==>
      r[i][j].alpha == X[i][j].alpha &&
      (X[i][j].alpha >= t ==> r[i][j] == X[i][j]) &&
      (X[i][j].alpha < t ==> r[i][j].rgb == alter[i + Before(|X|, 3)][j + Before(Width(X), 3)])
  {
    var r := Merged(X, alter, t);
    assert IsGrid(r, |X|, Width(X)) && forall i, j :: 0 <= i < |X| && 0 <= j < Width(X) ==>
      r[i][j].alpha == X[i][j].alpha &&
      (X[i][j].alpha >= t ==> r[i][j] == X[i][j]) &&
      (X[i][j].alpha < t ==> r[i][j].rgb == alter[i + Before(|X|, 3)][j + Before(Width(X), 3)])
    by {
      MergedShape(X, alter, t);
      forall i, j | 0 <= i < |X| && 0 <= j < Width(X)
        ensures r[i][j].alpha == X[i][j].alpha &&
          (X[i][j].alpha >= t ==> r[i][j] == X[i][j]) &&
          (X[i][j].alpha < t ==> r[i][j].rgb == alter[i + Before(|X|, 3)][j + Before(Width(X), 3)])
      {
        MergedAt(X, alter, t, i, j);
      }
    }
    r
  }
}

=== FILE: arith.dfy ===
/** Integer facts about flat indices, rows and columns that the solver does not
    find on its own. */
module Arith {

  lemma MulLe(a: nat, b: nat, s: nat)
    requires a <= b
    ensures a * s <= b * s
  {
  }

  /** Row `q` and column `m` of the flat index `q*s + m`. */
  lemma DivModOf(q: nat, s: nat, m: nat)
    requires 0 <= m < s
    ensures (q * s + m) / s == q && (q * s + m) % s == m
  {
    var n := q * s + m;
    var q', m' := n / s, n % s;
    assert n == q' * s + m';
    if q' < q {
      MulLe(q' + 1, q, s);
    } else if q' > q {
      MulLe(q + 1, q', s);
    }
  }

  /** A flat index is its row times the width plus its column. */
  lemma Split(j: nat, s: nat)
    requires s >= 1
    ensures j == (j / s) * s + j % s && j % s < s
  {
  }

  /** One more row adds one more width. */
  lemma MulSucc(r: nat, w: nat)
    ensures (r + 1) * w == r * w + w
  {
  }

  /** Parity of a product. */
  lemma {:induction false} MulParity(r: nat, w: nat)
    ensures (r * w) % 2 == if w % 2 == 0 then 0 else r % 2
  {
    if r > 0 {
      MulParity(r - 1, w);
      MulSucc(r - 1, w);
      SumParity((r - 1) * w, w, r - 1);
    }
  }

  /** Adding `w` to a number of the parity of `r*w` gives that of `(r+1)*w`. */
  lemma SumParity(p: int, w: int, r: int)
    requires p % 2 == if w % 2 == 0 then 0 else r % 2
    ensures (p + w) % 2 == if w % 2 == 0 then 0 else (r + 1) % 2
  {
  }

  /** An index below `h*w` lies in one of the first `h` rows. */
  lemma RowBound(j: nat, h: nat, w: nat)
    requires w >= 1 && j < h * w
    ensures j / w < h
  {
    Split(j, w);
    if j / w >= h {
      MulLe(h, j / w, w);
    }
  }

  /** Moving right within a row keeps the row and moves the column. */
  lemma WithinRow(j: nat, s: nat, d: nat)
    requires s >= 1 && j % s + d < s
    ensures (j + d) / s == j / s && (j + d) % s == j % s + d
  {
    Split(j, s);
    DivModOf(j / s, s, j % s + d);
  }

  /** Moving right past the end of a row wraps into the next one. */
  lemma WrapRow(j: nat, s: nat, d: nat)
    requires s >= 1 && s <= j % s + d < 2 * s
    ensures (j + d) % s == j % s + d - s
  {
    Split(j, s);
    MulSucc(j / s, s);
    DivModOf(j / s + 1, s, j % s + d - s);
  }
}

=== FILE: assembly.dfy ===
/** The end of `Pyx.transform`: palette indices become colours
    (`self.colors[...]`), flat pixel lists and images are reshaped into each
    other, the resized alpha channel is binarised and attached, and the image
    is enlarged by repeating rows and columns (`np.repeat`). */
module Assembly {
  import opened Arith
  import opened Padding

  /** Every index names an entry of the palette. */
  ghost predicate Indexes<C>(idx: seq<nat>, colors: seq<C>) {
    forall i :: 0 <= i < |idx| ==> idx[i] < |colors|
  }

  /** `self.colors[idx]`: numpy fancy indexing of the palette. */
  function MapColors<C>(idx: seq<nat>, colors: seq<C>): (out: seq<C>)
    requires Indexes(idx, colors)
    ensures |out| == |idx|
    ensures forall i :: 0 <= i < |idx| ==> out[i] == colors[idx[i]]
  {
    seq(|idx|, i requires 0 <= i < |idx| => colors[idx[i]])
  }

  /** Every output pixel is a palette colour, and an index sequence is
      recovered from the output whenever the palette has no duplicates. */
  lemma MapColorsInPalette<C>(idx: seq<nat>, colors: seq<C>)
    requires Indexes(idx, colors)
    ensures forall i :: 0 <= i < |idx| ==> MapColors(idx, colors)[i] in colors
    ensures (forall a, b :: 0 <= a < b < |colors| ==> colors[a] != colors[b]) ==>
      forall i, j :: 0 <= i < |idx| && 0 <= j < |idx| && MapColors(idx, colors)[i] == MapColors(idx, colors)[j] ==> idx[i] == idx[j]
  {
    var out := MapColors(idx, colors);
    if forall a, b :: 0 <= a < b < |colors| ==> colors[a] != colors[b] {
      forall i, j | 0 <= i < |idx| && 0 <= j < |idx| && out[i] == out[j]
        ensures idx[i] == idx[j]
      {
      }
    }
  }

  /** Row-major flattening of an `h`×`w` image: `X.reshape(h * w)`. */
  function Flatten<T>(X: seq<seq<T>>, h: nat, w: nat): (r: seq<T>)
    requires IsGrid(X, h, w)
    ensures |r| == h * w
  {
    seq(h * w, j requires 0 <= j < h * w => RowBound(j, h, w); Split(j, w); X[j / w][j % w])
  }

  /** Pixel `(y, x)` sits at `y*w + x` of the flat list. */
  lemma FlattenAt<T>(X: seq<seq<T>>, h: nat, w: nat, y: nat, x: nat)
    requires IsGrid(X, h, w) && y < h && x < w
    ensures y * w + x < h * w && Flatten(X, h, w)[y * w + x] == X[y][x]
  {
    DivModOf(y, w, x);
    MulLe(y + 1, h, w);
  }

  /** `s.reshape((h, w))` of a flat list of `h*w` pixels. */
  function Reshape<T>(s: seq<T>, h: nat, w: nat): (r: seq<seq<T>>)
    requires |s| == h * w
    ensures IsGrid(r, h, w)
  {
    seq(h, y requires 0 <= y < h => seq(w, x requires 0 <= x < w => InRange(h, w, y, x); s[y * w + x]))
  }

  lemma InRange(h: nat, w: nat, y: nat, x: nat)
    requires y < h && x < w
    ensures y * w + x < h * w
  {
    MulLe(y + 1, h, w);
  }

  /** Reshaping a flattened image gives the image back. */
  lemma ReshapeFlatten<T>(X: seq<seq<T>>, h: nat, w: nat)
    requires IsGrid(X, h, w)
    ensures Reshape(Flatten(X, h, w), h, w) == X
  {
    var r := Reshape(Flatten(X, h, w), h, w);
    forall y | 0 <= y < h
      ensures r[y] == X[y]
    {
      forall x | 0 <= x < w
        ensures r[y][x] == X[y][x]
      {
        FlattenAt(X, h, w, y, x);
      }
    }
  }

  /** Flattening a reshaped list gives the list back. */
  lemma FlattenReshape<T>(s: seq<T>, h: nat, w: nat)
    requires |s| == h * w
    ensures Flatten(Reshape(s, h, w), h, w) == s
  {
    var r := Flatten(Reshape(s, h, w), h, w);
    forall j | 0 <= j < h * w
      ensures r[j] == s[j]
    {
      RowBound(j, h, w);
      Split(j, w);
    }
  }

  /** The two masked assignments on one alpha value: first every value at or
      above the threshold `t` becomes 255, then every value below `t` becomes 0. */
  function BinarizeAlpha(a: real, t: real): (r: real)
    ensures r == 0.0 || r == 255.0
    ensures r == 255.0 <==> a >= t && t <= 255.0
  {
    var raised := if a >= t then 255.0 else a;
    if raised < t then 0.0 else raised
  }

  /** The binarised alpha channel of an image. */
  function BinarizeMask(M: seq<seq<real>>, t: real): (r: seq<seq<real>>)
    ensures |r| == |M| && forall y :: 0 <= y < |M| ==> |r[y]| == |M[y]|
    ensures forall y, x :: 0 <= y < |M| && 0 <= x < |M[y]| ==> r[y][x] == BinarizeAlpha(M[y][x], t)
  {
    seq(|M|, y requires 0 <= y < |M| => seq(|M[y]|, x requires 0 <= x < |M[y]| => BinarizeAlpha(M[y][x], t)))
  }

  /** Every binarised mask value is 0 or 255, and is 255 exactly where the
      resized alpha reached a threshold that is itself at most 255. */
  lemma BinarizeMaskLevels(M: seq<seq<real>>, t: real, y: nat, x: nat)
    requires y < |M| && x < |M[y]|
    ensures BinarizeMask(M, t)[y][x] in {0.0, 255.0}
    ensures BinarizeMask(M, t)[y][x] == 255.0 <==> M[y][x] >= t && t <= 255.0
  {
  }

  /** A colour with its alpha attached: `np.dstack((X_[:, :, :3], alpha))`. */
  datatype Rgba<C> = Rgba(rgb: C, alpha: int)

  /** `np.dstack` of a colour image and an equally sized binarised mask, after
      `alpha_mask.astype(int)`. `astype(int)` truncates toward zero, and `Floor`
      agrees with it on the values that reach it: a binarised mask holds only
      0 and 255. */
  function Attach<C>(X: seq<seq<C>>, M: seq<seq<real>>, h: nat, w: nat): (r: seq<seq<Rgba<C>>>)
    requires IsGrid(X, h, w) && IsGrid(M, h, w)
    ensures IsGrid(r, h, w)
    ensures forall y, x :: 0 <= y < h && 0 <= x < w ==> r[y][x].rgb == X[y][x]
  {
    seq(h, y requires 0 <= y < h => seq(w, x requires 0 <= x < w => Rgba(X[y][x], M[y][x].Floor)))
  }

  /** After binarisation the attached alpha is 0 or 255. */
  lemma AttachBinarized<C>(X: seq<seq<C>>, M: seq<seq<real>>, h: nat, w: nat, t: real, y: nat, x: nat)
    requires IsGrid(X, h, w) && IsGrid(M, h, w) && y < h && x < w
    ensures IsGrid(BinarizeMask(M, t), h, w)
    ensures Attach(X, BinarizeMask(M, t), h, w)[y][x].alpha in {0, 255}
    ensures Attach(X, BinarizeMask(M, t), h, w)[y][x].alpha == 255 <==> M[y][x] >= t && t <= 255.0
  {
    var B := BinarizeMask(M, t);
    assert B[y][x] == BinarizeAlpha(M[y][x], t);
  }

  /** `np.repeat(s, u)` along one axis: every element `u` times in a row. */
  function RepeatEach<T>(s: seq<T>, u: nat): (r: seq<T>)
    requires u >= 1
    ensures |r| == |s| * u
  {
    seq(|s| * u, i requires 0 <= i < |s| * u => RowBound(i, |s|, u); s[i / u])
  }

  /** Element `i` of the repeated sequence comes from element `i / u`, and
      the `u` copies of element `k` start at `k*u`. */
  lemma RepeatEachAt<T>(s: seq<T>, u: nat, i: nat)
    requires u >= 1 && i < |s| * u
    ensures i / u < |s| && RepeatEach(s, u)[i] == s[i / u]
  {
    RowBound(i, |s|, u);
  }

  /** Sampling every `u`-th element undoes the repetition. */
  lemma RepeatEachSample<T>(s: seq<T>, u: nat, k: nat, d: nat)
    requires u >= 1 && k < |s| && d < u
    ensures k * u + d < |s| * u && RepeatEach(s, u)[k * u + d] == s[k]
  {
    InRange(|s|, u, k, d);
    DivModOf(k, u, d);
  }

  /** `np.repeat(np.repeat(X, u0, axis=0), u1, axis=1)`. */
  function Upscale<T>(X: seq<seq<T>>, h: nat, w: nat, u0: nat, u1: nat): (r: seq<seq<T>>)
    requires IsGrid(X, h, w) && u0 >= 1 && u1 >= 1
    ensures IsGrid(r, h * u0, w * u1)
  {
    var rows := RepeatEach(X, u0);
    seq(h * u0, i requires 0 <= i < h * u0 => RepeatColumns(rows, w, u1, i))
  }

  /** Row `i` of the row-repeated image, with its columns repeated. */
  function RepeatColumns<T>(rows: seq<seq<T>>, w: nat, u1: nat, i: nat): (r: seq<T>)
    requires u1 >= 1 && i < |rows| && |rows[i]| == w
    ensures |r| == w * u1
  {
    RepeatEach(rows[i], u1)
  }

  /** Output pixel `(i, j)` shows input pixel `(i div u0, j div u1)`. */
  lemma UpscaleAt<T>(X: seq<seq<T>>, h: nat, w: nat, u0: nat, u1: nat, i: nat, j: nat)
    requires IsGrid(X, h, w) && u0 >= 1 && u1 >= 1 && i < h * u0 && j < w * u1
    ensures i / u0 < h && j / u1 < w
    ensures Upscale(X, h, w, u0, u1)[i][j] == X[i / u0][j / u1]
  {
    RepeatEachAt(X, u0, i);
    RepeatEachAt(X[i / u0], u1, j);
  }

  /** Every pixel of the input fills a `u0`×`u1` block of the output, so
      taking the top-left pixel of each block recovers the input. */
  lemma UpscaleBlock<T>(X: seq<seq<T>>, h: nat, w: nat, u0: nat, u1: nat, y: nat, x: nat, dy: nat, dx: nat)
    requires IsGrid(X, h, w) && u0 >= 1 && u1 >= 1 && y < h && x < w && dy < u0 && dx < u1
    ensures y * u0 + dy < h * u0 && x * u1 + dx < w * u1
    ensures Upscale(X, h, w, u0, u1)[y * u0 + dy][x * u1 + dx] == X[y][x]
  {
    InRange(h, u0, y, dy);
    InRange(w, u1, x, dx);
    DivModOf(y, u0, dy);
    DivModOf(x, u1, dx);
    UpscaleAt(X, h, w, u0, u1, y * u0 + dy, x * u1 + dx);
  }
}

=== FILE: atkinson.dfy ===
/** The Atkinson-like branch of `Pyx.transform` (`dither="atkinson"`). The
    image is padded to an `(h+2)`×`(w+3)` working buffer (one column in front,
    two behind, two rows below). Each original pixel, visited in raster order
    at buffer position `(y, x)` with `1 <= x <= w`, is classified from its
    current, already corrected colour, and an eighth of its residual against
    the chosen cluster mean is added to six later neighbours. The model's
    per-pixel prediction (`predict_proba` followed by `argmax`) is the
    parameter `classify`. */
module Atkinson {
  import opened Vectors
  import opened Raster
  import opened Padding

  /** Target `i` of a step at `(y, x)`, in the order the step writes them:
      right, two right, lower-left, below, lower-right, two below. */
  function Offset(y: nat, x: nat, i: nat): (nat, nat)
    requires x >= 1 && i < 6
  {
    if i == 0 then (y, x + 1) else if i == 1 then (y, x + 2) else if i == 2 then (y + 1, x - 1)
    else if i == 3 then (y + 1, x) else if i == 4 then (y + 1, x + 1) else (y + 2, x)
  }

  /** The six cells a step at `(y, x)` writes to. */
  function Targets(y: nat, x: nat): (ts: seq<(nat, nat)>)
    requires x >= 1
    ensures |ts| == 6 && forall i :: 0 <= i < 6 ==> ts[i] == Offset(y, x, i)
  {
    [(y, x + 1), (y, x + 2), (y + 1, x - 1), (y + 1, x), (y + 1, x + 1), (y + 2, x)]
  }

  /** A cell that precedes `(y, x)` in raster order, or is `(y, x)` itself,
      is never a target of the step at `(y, x)`. */
  lemma TargetsLater(y: nat, x: nat, yy: nat, xx: nat)
    requires x >= 1 && (yy < y || (yy == y && xx <= x))
    ensures (yy, xx) !in Targets(y, x)
  {
  }

  /** The cluster means are RGB vectors and every prediction names one. */
  ghost predicate ValidModel(means: seq<seq<real>>, classify: seq<real> -> nat) {
    (forall i :: 0 <= i < |means| ==> |means[i]| == 3) && (forall v :: classify(v) < |means|)
  }

  /** `(X_[y, x, :3] - means_[res[y, x]]) / 8.` for the chosen mean `m`. */
  function Residual(B: seq<seq<seq<real>>>, y: nat, x: nat, m: seq<real>): (e: seq<real>)
    requires y < |B| && x < |B[y]| && |B[y][x]| == 3 && |m| == 3
    ensures |e| == 3
    ensures forall c :: 0 <= c < 3 ==> e[c] == (B[y][x][c] - m[c]) / 8.0
  {
    Scale(Sub(B[y][x], m), 1.0 / 8.0)
  }

  /** The six writes of one step at buffer position `(y, x)`, whose pixel was
      assigned the cluster mean `m`. */
  function Step(B: seq<seq<seq<real>>>, h: nat, w: nat, y: nat, x: nat, m: seq<real>): (r: seq<seq<seq<real>>>)
    requires IsVolume(B, h + 2, w + 3, 3) && |m| == 3
    requires y < h && 1 <= x <= w
    ensures IsVolume(r, h + 2, w + 3, 3)
  {
    AddAll(B, h + 2, w + 3, 3, Targets(y, x), Residual(B, y, x, m))
  }

  /** The six targets of a step are six different cells. */
  lemma TargetsDistinct(y: nat, x: nat)
    requires x >= 1
    ensures NoRepeats(Targets(y, x))
  {
    var ts := Targets(y, x);
    forall i, j | 0 <= i < j < 6
      ensures ts[i] != ts[j]
    {
      assert ts[i] == Offset(y, x, i) && ts[j] == Offset(y, x, j);
    }
  }

  /** A step leaves every cell outside its six targets alone. */
  lemma StepFrame(B: seq<seq<seq<real>>>, h: nat, w: nat, y: nat, x: nat, m: seq<real>, yy: nat, xx: nat)
    requires IsVolume(B, h + 2, w + 3, 3) && |m| == 3
    requires y < h && 1 <= x <= w
    requires yy < h + 2 && xx < w + 3 && (yy, xx) !in Targets(y, x)
    ensures Step(B, h, w, y, x, m)[yy][xx] == B[yy][xx]
  {
    AddAllFrame(B, h + 2, w + 3, 3, Targets(y, x), Residual(B, y, x, m), yy, xx);
  }

  /** Each of the six targets receives the residual exactly once. */
  lemma StepTargets(B: seq<seq<seq<real>>>, h: nat, w: nat, y: nat, x: nat, m: seq<real>, i: nat)
    requires IsVolume(B, h + 2, w + 3, 3) && |m| == 3
    requires y < h && 1 <= x <= w && i < 6
    ensures Offset(y, x, i).0 < h + 2 && Offset(y, x, i).1 < w + 3
    ensures Step(B, h, w, y, x, m)[Offset(y, x, i).0][Offset(y, x, i).1] ==
      Add(B[Offset(y, x, i).0][Offset(y, x, i).1], Residual(B, y, x, m))
  {
    var ts := Targets(y, x);
    var e := Residual(B, y, x, m);
    TargetsDistinct(y, x);
    AddAllAt(B, h + 2, w + 3, 3, ts, e, i);
    var t := Offset(y, x, i);
    assert ts[i] == t && ts[i].0 == t.0 && ts[i].1 == t.1;
    assert Step(B, h, w, y, x, m) == AddAll(B, h + 2, w + 3, 3, ts, e);
  }

  /** Six eighths are three quarters. */
  lemma SixEighths(d: real, r: real)
    requires r == d * (1.0 / 8.0)
    ensures Times(6, r) == d * (3.0 / 4.0)
  {
    TimesIsProduct(6, r);
  }

  /** Six eighths of the residual are passed on; the other quarter is dropped,
      as Atkinson's scheme intends. */
  lemma StepDiffusesThreeQuarters(B: seq<seq<seq<real>>>, h: nat, w: nat, y: nat, x: nat, m: seq<real>, c: nat)
    requires IsVolume(B, h + 2, w + 3, 3) && |m| == 3
    requires y < h && 1 <= x <= w && c < 3
    ensures Has(B, c) && Has(Step(B, h, w, y, x, m), c)
    ensures Mass(Step(B, h, w, y, x, m), c) == Mass(B, c) + (B[y][x][c] - m[c]) * (3.0 / 4.0)
  {
    var e := Residual(B, y, x, m);
    MassAddAll(B, h + 2, w + 3, 3, Targets(y, x), e, c);
    SixEighths(B[y][x][c] - m[c], e[c]);
  }

  /** The step at `(y, x)` once the pixel there has been classified from its
      current colour. */
  function Visit(B: seq<seq<seq<real>>>, h: nat, w: nat, means: seq<seq<real>>, classify: seq<real> -> nat, y: nat, x: nat): (r: seq<seq<seq<real>>>)
    requires IsVolume(B, h + 2, w + 3, 3) && ValidModel(means, classify)
    requires y < h && 1 <= x <= w
    ensures IsVolume(r, h + 2, w + 3, 3)
  {
    Step(B, h, w, y, x, means[classify(B[y][x])])
  }

  /** The buffer after the visits at `(y, 1) .. (y, n)`, in that order. No
      visit writes to the first original pixel `(0, 1)`. */
  function WalkRow(B: seq<seq<seq<real>>>, h: nat, w: nat, means: seq<seq<real>>, classify: seq<real> -> nat, y: nat, n: nat): (r: seq<seq<seq<real>>>)
    requires IsVolume(B, h + 2, w + 3, 3) && ValidModel(means, classify)
    requires y < h && n <= w
    ensures IsVolume(r, h + 2, w + 3, 3)
    ensures r[0][1] == B[0][1]
    decreases n
  {
    if n == 0 then B
    else
      var Q := WalkRow(B, h, w, means, classify, y, n - 1);
      TargetsLater(y, n, 0, 1);
      StepFrame(Q, h, w, y, n, means[classify(Q[y][n])], 0, 1);
      Visit(Q, h, w, means, classify, y, n)
  }

  /** Reference definition of the diffusion: the buffer after the visits of
      rows `0 .. m-1`, each row left to right. The first original pixel keeps
      its colour throughout. */
  function Walk(B0: seq<seq<seq<real>>>, h: nat, w: nat, means: seq<seq<real>>, classify: seq<real> -> nat, m: nat): (r: seq<seq<seq<real>>>)
    requires IsVolume(B0, h + 2, w + 3, 3) && ValidModel(means, classify)
    requires m <= h
    ensures IsVolume(r, h + 2, w + 3, 3)
    ensures r[0][1] == B0[0][1]
    decreases m
  {
    if m == 0 then B0 else WalkRow(Walk(B0, h, w, means, classify, m - 1), h, w, means, classify, m - 1, w)
  }

  /** One more row of the walk. */
  lemma WalkNext(B0: seq<seq<seq<real>>>, h: nat, w: nat, means: seq<seq<real>>, classify: seq<real> -> nat, m: nat)
    requires IsVolume(B0, h + 2, w + 3, 3) && ValidModel(means, classify) && m < h
    ensures Walk(B0, h, w, means, classify, m + 1) == WalkRow(Walk(B0, h, w, means, classify, m), h, w, means, classify, m, w)
  {
  }

  /** Every original pixel of a buffer row holds the prediction for its colour. */
  ghost predicate RowClassified(row: seq<nat>, cells: seq<seq<real>>, classify: seq<real> -> nat, w: nat) {
    |row| == w + 3 && |cells| == w + 3 && forall xx :: 1 <= xx <= w ==> row[xx] == classify(cells[xx])
  }

  /** Buffer cell `(y, xx)` of `res` holds the prediction for that cell of `B`. */
  ghost predicate Classified(res: seq<seq<nat>>, B: seq<seq<seq<real>>>, classify: seq<real> -> nat, y: nat, xx: nat) {
    y < |res| && xx < |res[y]| && y < |B| && xx < |B[y]| && res[y][xx] == classify(B[y][xx])
  }

  /** `res[:h, 1:w+1]`. */
  function Crop(res: seq<seq<nat>>, h: nat, w: nat): (out: seq<seq<nat>>)
    requires |res| >= h && forall y :: 0 <= y < h ==> |res[y]| >= w + 1
    ensures |out| == h && forall y :: 0 <= y < h ==> |out[y]| == w
    ensures forall y, x :: 0 <= y < h && 0 <= x < w ==> out[y][x] == res[y][x + 1]
  {
    seq(h, y requires 0 <= y < h => res[y][1..w + 1])
  }

  /** The body of the row loop at `(y, x)`: classify the pixel, then diffuse. */
  method ScanStep(res0: seq<seq<nat>>, B0: seq<seq<seq<real>>>, h: nat, w: nat, means: seq<seq<real>>, classify: seq<real> -> nat, y: nat, x: nat)
    returns (res: seq<seq<nat>>, B: seq<seq<seq<real>>>)
    requires IsVolume(B0, h + 2, w + 3, 3) && IsGrid(res0, h + 2, w + 3) && ValidModel(means, classify)
    requires y < h && 1 <= x <= w
    ensures IsVolume(B, h + 2, w + 3, 3) && IsGrid(res, h + 2, w + 3)
    ensures B == Visit(B0, h, w, means, classify, y, x)
    ensures forall yy :: 0 <= yy < y ==> B[yy] == B0[yy]
    ensures forall xx :: 0 <= xx <= x ==> B[y][xx] == B0[y][xx]
    ensures forall yy :: 0 <= yy < h + 2 && yy != y ==> res[yy] == res0[yy]
    ensures forall xx :: 0 <= xx < w + 3 && xx != x ==> res[y][xx] == res0[y][xx]
    ensures res[y][x] == classify(B0[y][x])
  {
    var i := classify(B0[y][x]);
    B := Step(B0, h, w, y, x, means[i]);
    forall yy | 0 <= yy < y
      ensures B[yy] == B0[yy]
    {
      forall xx | 0 <= xx < w + 3
        ensures B[yy][xx] == B0[yy][xx]
      {
        TargetsLater(y, x, yy, xx);
        StepFrame(B0, h, w, y, x, means[i], yy, xx);
      }
    }
    forall xx | 0 <= xx <= x
      ensures B[y][xx] == B0[y][xx]
    {
      TargetsLater(y, x, y, xx);
      StepFrame(B0, h, w, y, x, means[i], y, xx);
    }
    var row: seq<nat> := res0[y][x := i];
    res := res0[y := row];
  }

  /** One turn of the row loop: the visit at `(y, x)` extends the walk of the
      row by one column and leaves every earlier pixel of the row classified. */
  method ScanAdvance(res0: seq<seq<nat>>, B0: seq<seq<seq<real>>>, res1: seq<seq<nat>>, B1: seq<seq<seq<real>>>,
                     h: nat, w: nat, means: seq<seq<real>>, classify: seq<real> -> nat, y: nat, x: nat)
    returns (res: seq<seq<nat>>, B: seq<seq<seq<real>>>)
    requires IsVolume(B0, h + 2, w + 3, 3) && IsGrid(res0, h + 2, w + 3) && ValidModel(means, classify)
    requires IsVolume(B1, h + 2, w + 3, 3) && IsGrid(res1, h + 2, w + 3) && y < h && 1 <= x <= w
    requires B1 == WalkRow(B0, h, w, means, classify, y, x - 1)
    requires forall yy :: 0 <= yy < y ==> B1[yy] == B0[yy]
    requires forall yy :: 0 <= yy < h + 2 && yy != y ==> res1[yy] == res0[yy]
    requires forall xx :: 1 <= xx < x ==> Classified(res1, B1, classify, y, xx)
    ensures IsVolume(B, h + 2, w + 3, 3) && IsGrid(res, h + 2, w + 3)
    ensures B == WalkRow(B0, h, w, means, classify, y, x)
    ensures forall yy :: 0 <= yy < y ==> B[yy] == B0[yy]
    ensures forall yy :: 0 <= yy < h + 2 && yy != y ==> res[yy] == res0[yy]
    ensures forall xx :: 1 <= xx <= x ==> Classified(res, B, classify, y, xx)
  {
    res, B := ScanStep(res1, B1, h, w, means, classify, y, x);
    forall xx | 1 <= xx <= x
      ensures Classified(res, B, classify, y, xx)
    {
      if xx != x {
        assert Classified(res1, B1, classify, y, xx);
      }
    }
  }

  /** One buffer row `y`, original columns `1 .. w`. Earlier rows keep their
      colours, and only row `y` of `res` is written. */
  method ScanRow(res0: seq<seq<nat>>, B0: seq<seq<seq<real>>>, h: nat, w: nat, means: seq<seq<real>>, classify: seq<real> -> nat, y: nat)
    returns (res: seq<seq<nat>>, B: seq<seq<seq<real>>>)
    requires IsVolume(B0, h + 2, w + 3, 3) && IsGrid(res0, h + 2, w + 3) && ValidModel(means, classify)
    requires y < h
    ensures IsVolume(B, h + 2, w + 3, 3) && IsGrid(res, h + 2, w + 3)
    ensures B == WalkRow(B0, h, w, means, classify, y, w)
    ensures forall yy :: 0 <= yy < y ==> B[yy] == B0[yy]
    ensures forall yy :: 0 <= yy < h + 2 && yy != y ==> res[yy] == res0[yy]
    ensures RowClassified(res[y], B[y], classify, w)
  {
    B, res := B0, res0;
    var x := 1;
    while x <= w
      invariant 1 <= x <= w + 1
      invariant IsVolume(B, h + 2, w + 3, 3) && IsGrid(res, h + 2, w + 3)
      invariant B == WalkRow(B0, h, w, means, classify, y, x - 1)
      invariant forall yy :: 0 <= yy < y ==> B[yy] == B0[yy]
      invariant forall yy :: 0 <= yy < h + 2 && yy != y ==> res[yy] == res0[yy]
      invariant forall xx :: 1 <= xx < x ==> Classified(res, B, classify, y, xx)
    {
      res, B := ScanAdvance(res0, B0, res, B, h, w, means, classify, y, x);
      x := x + 1;
    }
    assert x - 1 == w;
    RowOfClassified(res, B, classify, y, w);
  }

  /** A row whose original pixels are each classified is classified as a row. */
  lemma RowOfClassified(res: seq<seq<nat>>, B: seq<seq<seq<real>>>, classify: seq<real> -> nat, y: nat, w: nat)
    requires y < |res| && y < |B| && |res[y]| == w + 3 && |B[y]| == w + 3
    requires forall xx :: 1 <= xx <= w ==> Classified(res, B, classify, y, xx)
    ensures RowClassified(res[y], B[y], classify, w)
  {
    forall xx | 1 <= xx <= w
      ensures res[y][xx] == classify(B[y][xx])
    {
      assert Classified(res, B, classify, y, xx);
    }
  }

  /** The row loop over all original pixels, before the crop. The buffer
      ends as the reference walk leaves it, and every original pixel of `res`
      holds the prediction for its colour in that final buffer. */
  method Rows(B0: seq<seq<seq<real>>>, h: nat, w: nat, means: seq<seq<real>>, classify: seq<real> -> nat)
    returns (res: seq<seq<nat>>, B: seq<seq<seq<real>>>)
    requires IsVolume(B0, h + 2, w + 3, 3) && ValidModel(means, classify)
    ensures IsVolume(B, h + 2, w + 3, 3) && IsGrid(res, h + 2, w + 3)
    ensures B == Walk(B0, h, w, means, classify, h)
    ensures forall yy :: 0 <= yy < h ==> RowClassified(res[yy], B[yy], classify, w)
  {
    B := B0;
    res := Zeros(h + 2, w + 3);
    var y := 0;
    while y < h
      invariant 0 <= y <= h
      invariant IsVolume(B, h + 2, w + 3, 3) && IsGrid(res, h + 2, w + 3)
      invariant B == Walk(B0, h, w, means, classify, y)
      invariant forall yy :: 0 <= yy < y ==> RowClassified(res[yy], B[yy], classify, w)
    {
      res, B := RowsNext(B0, res, B, h, w, means, classify, y);
      y := y + 1;
    }
  }

  /** One turn of the row loop: row `y` extends the walk by one row and is
      classified, and the rows above it stay classified. */
  method RowsNext(B0: seq<seq<seq<real>>>, res1: seq<seq<nat>>, B1: seq<seq<seq<real>>>,
                  h: nat, w: nat, means: seq<seq<real>>, classify: seq<real> -> nat, y: nat)
    returns (res: seq<seq<nat>>, B: seq<seq<seq<real>>>)
    requires IsVolume(B0, h + 2, w + 3, 3) && IsGrid(res1, h + 2, w + 3) && ValidModel(means, classify) && y < h
    requires B1 == Walk(B0, h, w, means, classify, y)
    requires forall yy :: 0 <= yy < y ==> RowClassified(res1[yy], B1[yy], classify, w)
    ensures IsVolume(B, h + 2, w + 3, 3) && IsGrid(res, h + 2, w + 3)
    ensures B == Walk(B0, h, w, means, classify, y + 1)
    ensures forall yy :: 0 <= yy <= y ==> RowClassified(res[yy], B[yy], classify, w)
  {
    res, B := ScanRow(res1, B1, h, w, means, classify, y);
    WalkNext(B0, h, w, means, classify, y);
  }

  /** The scan over all original pixels followed by the crop. The buffer ends
      as the reference walk leaves it, every output index is the prediction
      for its pixel's colour in that final buffer, and the very first pixel is
      classified from its original colour. */
  method Scan(B0: seq<seq<seq<real>>>, h: nat, w: nat, means: seq<seq<real>>, classify: seq<real> -> nat)
    returns (out: seq<seq<nat>>, B: seq<seq<seq<real>>>)
    requires IsVolume(B0, h + 2, w + 3, 3) && ValidModel(means, classify)
    ensures IsVolume(B, h + 2, w + 3, 3)
    ensures B == Walk(B0, h, w, means, classify, h)
    ensures |out| == h && forall y :: 0 <= y < h ==> |out[y]| == w
    ensures forall y, x :: 0 <= y < h && 0 <= x < w ==> out[y][x] == classify(B[y][x + 1]) && out[y][x] < |means|
    ensures h >= 1 && w >= 1 ==> out[0][0] == classify(B0[0][1])
  {
    var res;
    res, B := Rows(B0, h, w, means, classify);
    out := Crop(res, h, w);
    forall yy, xx | 0 <= yy < h && 0 <= xx < w
      ensures out[yy][xx] == classify(B[yy][xx + 1])
    {
      assert RowClassified(res[yy], B[yy], classify, w);
    }
  }
}

=== FILE: floyd.dfy ===
/** The Floyd–Steinberg-like branch of `Pyx.transform` (`dither="floyd"`).
    The per-colour probability maps (already raised to the power 1/6) are the
    input; each interior pixel takes the colour with the most remaining mass
    and hands the rest of its mass, in sixteenths 7/3/5/1, to its right,
    lower-left, lower and lower-right neighbours. */
module Floyd {
  import opened Vectors
  import opened Raster
  import opened Padding

  /** The four cells a step at `(y, x)` writes to. */
  predicate Touched(y: nat, x: nat, yy: nat, xx: nat) {
    (yy == y && xx == x + 1) || (yy == y + 1 && x - 1 <= xx <= x + 1)
  }

  /** Adds `d[0]` to the right, `d[1]` to the lower-left, `d[2]` to the lower
      and `d[3]` to the lower-right neighbour of `(y, x)`, in that order. */
  function Spread(P: seq<seq<seq<real>>>, h: nat, w: nat, k: nat, y: nat, x: nat, d: seq<seq<real>>): (r: seq<seq<seq<real>>>)
    requires IsVolume(P, h, w, k) && |d| == 4 && forall i :: 0 <= i < 4 ==> |d[i]| == k
    requires y + 1 < h && 1 <= x && x + 1 < w
    ensures IsVolume(r, h, w, k)
  {
    var P1 := AddAt(P, h, w, k, y, x + 1, d[0]);
    var P2 := AddAt(P1, h, w, k, y + 1, x - 1, d[1]);
    var P3 := AddAt(P2, h, w, k, y + 1, x, d[2]);
    AddAt(P3, h, w, k, y + 1, x + 1, d[3])
  }

  /** A cell outside the four neighbours keeps its vector. */
  lemma SpreadFrame(P: seq<seq<seq<real>>>, h: nat, w: nat, k: nat, y: nat, x: nat, d: seq<seq<real>>, yy: nat, xx: nat)
    requires IsVolume(P, h, w, k) && |d| == 4 && forall i :: 0 <= i < 4 ==> |d[i]| == k
    requires y + 1 < h && 1 <= x && x + 1 < w
    requires yy < h && xx < w && !Touched(y, x, yy, xx)
    ensures Spread(P, h, w, k, y, x, d)[yy][xx] == P[yy][xx]
  {
    var P1 := AddAt(P, h, w, k, y, x + 1, d[0]);
    var P2 := AddAt(P1, h, w, k, y + 1, x - 1, d[1]);
    var P3 := AddAt(P2, h, w, k, y + 1, x, d[2]);
    var P4 := AddAt(P3, h, w, k, y + 1, x + 1, d[3]);
    assert P4[yy][xx] == P3[yy][xx] == P2[yy][xx] == P1[yy][xx] == P[yy][xx];
  }

  /** Each of the four neighbours receives exactly its own share. */
  lemma SpreadShares(P: seq<seq<seq<real>>>, h: nat, w: nat, k: nat, y: nat, x: nat, d: seq<seq<real>>)
    requires IsVolume(P, h, w, k) && |d| == 4 && forall i :: 0 <= i < 4 ==> |d[i]| == k
    requires y + 1 < h && 1 <= x && x + 1 < w
    ensures Spread(P, h, w, k, y, x, d)[y][x + 1] == Add(P[y][x + 1], d[0])
    ensures Spread(P, h, w, k, y, x, d)[y + 1][x - 1] == Add(P[y + 1][x - 1], d[1])
    ensures Spread(P, h, w, k, y, x, d)[y + 1][x] == Add(P[y + 1][x], d[2])
    ensures Spread(P, h, w, k, y, x, d)[y + 1][x + 1] == Add(P[y + 1][x + 1], d[3])
  {
    var P1 := AddAt(P, h, w, k, y, x + 1, d[0]);
    var P2 := AddAt(P1, h, w, k, y + 1, x - 1, d[1]);
    var P3 := AddAt(P2, h, w, k, y + 1, x, d[2]);
    var P4 := AddAt(P3, h, w, k, y + 1, x + 1, d[3]);
    assert P4[y][x + 1] == P3[y][x + 1] == P2[y][x + 1] == P1[y][x + 1];
    assert P4[y + 1][x - 1] == P3[y + 1][x - 1] == P2[y + 1][x - 1];
    assert P4[y + 1][x] == P3[y + 1][x];
    assert P3[y + 1][x - 1] == P2[y + 1][x - 1] && P2[y + 1][x - 1] == Add(P1[y + 1][x - 1], d[1]);
    assert P1[y + 1][x - 1] == P[y + 1][x - 1] && P2[y + 1][x] == P[y + 1][x] && P3[y + 1][x + 1] == P[y + 1][x + 1];
  }

  /** Each neighbour's share arrives in full. */
  lemma MassSpread(P: seq<seq<seq<real>>>, h: nat, w: nat, k: nat, y: nat, x: nat, d: seq<seq<real>>, c: nat)
    requires IsVolume(P, h, w, k) && |d| == 4 && (forall i :: 0 <= i < 4 ==> |d[i]| == k) && c < k
    requires y + 1 < h && 1 <= x && x + 1 < w
    ensures Has(P, c) && Has(Spread(P, h, w, k, y, x, d), c)
    ensures Mass(Spread(P, h, w, k, y, x, d), c) == Mass(P, c) + d[0][c] + d[1][c] + d[2][c] + d[3][c]
  {
    var P1 := AddAt(P, h, w, k, y, x + 1, d[0]);
    MassAddAt(P, h, w, k, y, x + 1, d[0], c);
    var P2 := AddAt(P1, h, w, k, y + 1, x - 1, d[1]);
    MassAddAt(P1, h, w, k, y + 1, x - 1, d[1], c);
    var P3 := AddAt(P2, h, w, k, y + 1, x, d[2]);
    MassAddAt(P2, h, w, k, y + 1, x, d[2], c);
    MassAddAt(P3, h, w, k, y + 1, x + 1, d[3], c);
  }

  /** `quant_error * 7`, `* 3`, `* 5` and `* 1`: the Floyd–Steinberg weights in
      sixteenths (the error is already divided by 16). */
  function Shares(e: seq<real>): (d: seq<seq<real>>)
    ensures |d| == 4 && forall i :: 0 <= i < 4 ==> |d[i]| == |e|
    ensures forall c :: 0 <= c < |e| ==>
      d[0][c] == 7.0 * e[c] && d[1][c] == 3.0 * e[c] && d[2][c] == 5.0 * e[c] && d[3][c] == e[c]
  {
    [Scale(e, 7.0), Scale(e, 3.0), Scale(e, 5.0), Scale(e, 1.0)]
  }

  /** The error a pixel passes on: its vector in sixteenths, with the
      component of its most probable colour removed. */
  function Residue(v: seq<real>): (e: seq<real>)
    requires |v| > 0
    ensures |e| == |v| && e[ArgMax(v)] == 0.0
    ensures forall c :: 0 <= c < |v| && c != ArgMax(v) ==> e[c] == v[c] * (1.0 / 16.0)
  {
    Scale(v, 1.0 / 16.0)[ArgMax(v) := 0.0]
  }

  /** One interior step: the chosen palette index and the updated maps. */
  function Step(P: seq<seq<seq<real>>>, h: nat, w: nat, k: nat, y: nat, x: nat): (r: (nat, seq<seq<seq<real>>>))
    requires IsVolume(P, h, w, k) && k >= 1
    requires y + 1 < h && 1 <= x && x + 1 < w
    ensures r.0 == ArgMax(P[y][x])
    ensures IsVolume(r.1, h, w, k)
  {
    var qe := Scale(P[y][x], 1.0 / 16.0);
    ArgMaxScale(P[y][x], 1.0 / 16.0);
    var c := ArgMax(qe);
    (c, Spread(P, h, w, k, y, x, Shares(qe[c := 0.0])))
  }

  /** The right, lower-left, lower and lower-right neighbours of a step
      receive 7, 3, 5 and 1 times the pixel's residue. */
  lemma StepShares(P: seq<seq<seq<real>>>, h: nat, w: nat, k: nat, y: nat, x: nat)
    requires IsVolume(P, h, w, k) && k >= 1
    requires y + 1 < h && 1 <= x && x + 1 < w
    ensures Step(P, h, w, k, y, x).1[y][x + 1] == Add(P[y][x + 1], Scale(Residue(P[y][x]), 7.0))
    ensures Step(P, h, w, k, y, x).1[y + 1][x - 1] == Add(P[y + 1][x - 1], Scale(Residue(P[y][x]), 3.0))
    ensures Step(P, h, w, k, y, x).1[y + 1][x] == Add(P[y + 1][x], Scale(Residue(P[y][x]), 5.0))
    ensures Step(P, h, w, k, y, x).1[y + 1][x + 1] == Add(P[y + 1][x + 1], Scale(Residue(P[y][x]), 1.0))
  {
    var qe := Scale(P[y][x], 1.0 / 16.0);
    ArgMaxScale(P[y][x], 1.0 / 16.0);
    assert qe[ArgMax(qe) := 0.0] == Residue(P[y][x]);
    SpreadShares(P, h, w, k, y, x, Shares(Residue(P[y][x])));
  }

  /** A step writes to its four neighbours only. */
  lemma StepFrame(P: seq<seq<seq<real>>>, h: nat, w: nat, k: nat, y: nat, x: nat, yy: nat, xx: nat)
    requires IsVolume(P, h, w, k) && k >= 1
    requires y + 1 < h && 1 <= x && x + 1 < w
    requires yy < h && xx < w && !Touched(y, x, yy, xx)
    ensures Step(P, h, w, k, y, x).1[yy][xx] == P[yy][xx]
  {
    var qe := Scale(P[y][x], 1.0 / 16.0);
    SpreadFrame(P, h, w, k, y, x, Shares(qe[ArgMax(qe) := 0.0]), yy, xx);
  }

  /** The mass a step hands to the neighbours is the pixel's own vector with
      the chosen component removed: 7 + 3 + 5 + 1 = 16 sixteenths. */
  lemma StepConservesMass(P: seq<seq<seq<real>>>, h: nat, w: nat, k: nat, y: nat, x: nat, c: nat)
    requires IsVolume(P, h, w, k) && k >= 1
    requires y + 1 < h && 1 <= x && x + 1 < w && c < k
    ensures Has(P, c) && Has(Step(P, h, w, k, y, x).1, c)
    ensures Mass(Step(P, h, w, k, y, x).1, c) ==
      Mass(P, c) + (if c == Step(P, h, w, k, y, x).0 then 0.0 else P[y][x][c])
  {
    var qe := Scale(P[y][x], 1.0 / 16.0);
    ArgMaxScale(P[y][x], 1.0 / 16.0);
    var b := ArgMax(qe);
    var e := qe[b := 0.0];
    MassSpread(P, h, w, k, y, x, Shares(e), c);
    if c != b {
      assert e[c] == P[y][x][c] * (1.0 / 16.0);
    }
  }

  /** Cell `(yy, xx)` of `res` holds the argmax of its maps in `P`. */
  ghost predicate Done(res: seq<seq<nat>>, P: seq<seq<seq<real>>>, yy: nat, xx: nat) {
    && yy < |res| && xx < |res[yy]| && yy < |P| && xx < |P[yy]| && |P[yy][xx]| > 0
    && res[yy][xx] == ArgMax(P[yy][xx])
  }

  /** Both border columns of row `y` are done. */
  ghost predicate EdgesDone(res: seq<seq<nat>>, P: seq<seq<seq<real>>>, y: nat, w: nat) {
    w >= 1 && Done(res, P, y, 0) && Done(res, P, y, w - 1)
  }

  /** Number of interior columns of a `w`-wide image. */
  function InnerWidth(w: nat): nat {
    if w >= 2 then w - 2 else 0
  }

  /** The maps after the interior steps at `(y, 1) .. (y, n)`, in that order,
      starting from `P`. No step writes to the top-left pixel. */
  function WalkRow(P: seq<seq<seq<real>>>, h: nat, w: nat, k: nat, y: nat, n: nat): (r: seq<seq<seq<real>>>)
    requires IsVolume(P, h, w, k) && k >= 1 && y + 1 < h && n <= InnerWidth(w)
    ensures IsVolume(r, h, w, k)
    ensures w >= 1 ==> r[0][0] == P[0][0]
    decreases n
  {
    if n == 0 then P
    else
      var Q := WalkRow(P, h, w, k, y, n - 1);
      StepFrame(Q, h, w, k, y, n, 0, 0);
      Step(Q, h, w, k, y, n).1
  }

  /** Reference definition of the diffusion: the maps after the interior
      steps of rows `0 .. m-1`, each row left to right. The top-left pixel
      keeps its maps throughout. */
  function Walk(P0: seq<seq<seq<real>>>, h: nat, w: nat, k: nat, m: nat): (r: seq<seq<seq<real>>>)
    requires IsVolume(P0, h, w, k) && k >= 1 && m < h
    ensures IsVolume(r, h, w, k)
    ensures w >= 1 ==> r[0][0] == P0[0][0]
    decreases m
  {
    if m == 0 then P0 else WalkRow(Walk(P0, h, w, k, m - 1), h, w, k, m - 1, InnerWidth(w))
  }

  /** Every interior cell of a row holds the argmax of its maps. */
  ghost predicate RowDone(row: seq<nat>, maps: seq<seq<real>>, w: nat) {
    |row| == w && |maps| == w && forall xx :: 1 <= xx < w - 1 ==> |maps[xx]| > 0 && row[xx] == ArgMax(maps[xx])
  }

  /** One row `y` of the interior walk, columns `1 .. w-2`. Earlier rows keep
      their maps, and only row `y` of `res` is written. */
  method InteriorRow(res0: seq<seq<nat>>, P0: seq<seq<seq<real>>>, h: nat, w: nat, k: nat, y: nat)
    returns (res: seq<seq<nat>>, P: seq<seq<seq<real>>>)
    requires IsVolume(P0, h, w, k) && IsGrid(res0, h, w) && y + 1 < h && k >= 1
    ensures IsVolume(P, h, w, k) && IsGrid(res, h, w)
    ensures P == WalkRow(P0, h, w, k, y, InnerWidth(w))
    ensures forall yy :: 0 <= yy < y ==> P[yy] == P0[yy]
    ensures forall yy :: 0 <= yy < h && yy != y ==> res[yy] == res0[yy]
    ensures RowDone(res[y], P[y], w)
  {
    P, res := P0, res0;
    var x := 1;
    while x < w - 1
      invariant 1 <= x && (w >= 2 ==> x <= w - 1) && (w < 2 ==> x == 1)
      invariant IsVolume(P, h, w, k) && IsGrid(res, h, w)
      invariant P == WalkRow(P0, h, w, k, y, x - 1)
      invariant forall yy :: 0 <= yy < y ==> P[yy] == P0[yy]
      invariant forall yy :: 0 <= yy < h && yy != y ==> res[yy] == res0[yy]
      invariant forall xx :: 1 <= xx < x ==> Done(res, P, y, xx)
    {
      res, P := InteriorAdvance(res0, P0, res, P, h, w, k, y, x);
      x := x + 1;
    }
    assert x - 1 == InnerWidth(w);
    forall xx | 1 <= xx < w - 1
      ensures |P[y][xx]| > 0 && res[y][xx] == ArgMax(P[y][xx])
    {
      assert Done(res, P, y, xx);
    }
  }

  /** One turn of the row loop: the step at `(y, x)` extends the walk of the
      row by one column and leaves every earlier column of the row done. */
  method InteriorAdvance(res0: seq<seq<nat>>, P0: seq<seq<seq<real>>>, res1: seq<seq<nat>>, P1: seq<seq<seq<real>>>,
                         h: nat, w: nat, k: nat, y: nat, x: nat)
    returns (res: seq<seq<nat>>, P: seq<seq<seq<real>>>)
    requires IsVolume(P0, h, w, k) && IsGrid(res0, h, w) && y + 1 < h && k >= 1
    requires IsVolume(P1, h, w, k) && IsGrid(res1, h, w) && 1 <= x && x + 1 < w
    requires P1 == WalkRow(P0, h, w, k, y, x - 1)
    requires forall yy :: 0 <= yy < y ==> P1[yy] == P0[yy]
    requires forall yy :: 0 <= yy < h && yy != y ==> res1[yy] == res0[yy]
    requires forall xx :: 1 <= xx < x ==> Done(res1, P1, y, xx)
    ensures IsVolume(P, h, w, k) && IsGrid(res, h, w)
    ensures P == WalkRow(P0, h, w, k, y, x)
    ensures forall yy :: 0 <= yy < y ==> P[yy] == P0[yy]
    ensures forall yy :: 0 <= yy < h && yy != y ==> res[yy] == res0[yy]
    ensures forall xx :: 1 <= xx <= x ==> Done(res, P, y, xx)
  {
    res, P := InteriorStep(res1, P1, h, w, k, y, x);
    forall xx | 1 <= xx <= x
      ensures Done(res, P, y, xx)
    {
      if xx != x {
        assert Done(res1, P1, y, xx);
      }
    }
  }

  /** The body of the row loop at `(y, x)`: record the argmax and diffuse. */
  method InteriorStep(res0: seq<seq<nat>>, P0: seq<seq<seq<real>>>, h: nat, w: nat, k: nat, y: nat, x: nat)
    returns (res: seq<seq<nat>>, P: seq<seq<seq<real>>>)
    requires IsVolume(P0, h, w, k) && IsGrid(res0, h, w) && k >= 1
    requires y + 1 < h && 1 <= x && x + 1 < w
    ensures IsVolume(P, h, w, k) && IsGrid(res, h, w)
    ensures P == Step(P0, h, w, k, y, x).1
    ensures forall yy :: 0 <= yy < y ==> P[yy] == P0[yy]
    ensures forall xx :: 0 <= xx <= x ==> P[y][xx] == P0[y][xx]
    ensures forall yy :: 0 <= yy < h && yy != y ==> res[yy] == res0[yy]
    ensures forall xx :: 0 <= xx < w && xx != x ==> res[y][xx] == res0[y][xx]
    ensures res[y][x] == ArgMax(P0[y][x])
  {
    var step := Step(P0, h, w, k, y, x);
    forall yy | 0 <= yy < y
      ensures step.1[yy] == P0[yy]
    {
      forall xx | 0 <= xx < w
        ensures step.1[yy][xx] == P0[yy][xx]
      {
        StepFrame(P0, h, w, k, y, x, yy, xx);
      }
    }
    forall xx | 0 <= xx <= x
      ensures step.1[y][xx] == P0[y][xx]
    {
      StepFrame(P0, h, w, k, y, x, y, xx);
    }
    var row: seq<nat> := res0[y][x := step.0];
    res, P := res0[y := row], step.1;
  }

  /** One more row of the walk. */
  lemma WalkNext(P0: seq<seq<seq<real>>>, h: nat, w: nat, k: nat, m: nat)
    requires IsVolume(P0, h, w, k) && k >= 1 && m + 1 < h
    ensures Walk(P0, h, w, k, m + 1) == WalkRow(Walk(P0, h, w, k, m), h, w, k, m, InnerWidth(w))
  {
  }

  /** With no interior column, or no row above the last, nothing moves. */
  lemma {:induction false} WalkNarrow(P0: seq<seq<seq<real>>>, h: nat, w: nat, k: nat, m: nat)
    requires IsVolume(P0, h, w, k) && k >= 1 && m < h
    ensures m == 0 || w <= 2 ==> Walk(P0, h, w, k, m) == P0
    decreases m
  {
    if m > 0 && w <= 2 {
      WalkNarrow(P0, h, w, k, m - 1);
    }
  }

  /** The interior raster walk: rows `0 .. h-2`, columns `1 .. w-2`. */
  method Interior(P0: seq<seq<seq<real>>>, h: nat, w: nat, k: nat) returns (res: seq<seq<nat>>, P: seq<seq<seq<real>>>)
    requires IsVolume(P0, h, w, k) && h >= 1 && w >= 1 && k >= 1
    ensures IsVolume(P, h, w, k) && IsGrid(res, h, w)
    ensures forall y :: 0 <= y < h - 1 ==> RowDone(res[y], P[y], w)
    ensures P == Walk(P0, h, w, k, h - 1)
  {
    P := P0;
    res := Zeros(h, w);
    var y := 0;
    while y < h - 1
      invariant 0 <= y <= h - 1
      invariant IsVolume(P, h, w, k) && IsGrid(res, h, w)
      invariant forall yy :: 0 <= yy < y ==> RowDone(res[yy], P[yy], w)
      invariant P == Walk(P0, h, w, k, y)
    {
      res, P := InteriorNext(P0, res, P, h, w, k, y);
      y := y + 1;
    }
  }

  /** One turn of the row loop: row `y` extends the walk by one row and is
      done, and the rows above it stay done. */
  method InteriorNext(P0: seq<seq<seq<real>>>, res1: seq<seq<nat>>, P1: seq<seq<seq<real>>>, h: nat, w: nat, k: nat, y: nat)
    returns (res: seq<seq<nat>>, P: seq<seq<seq<real>>>)
    requires IsVolume(P0, h, w, k) && IsGrid(res1, h, w) && y + 1 < h && k >= 1
    requires P1 == Walk(P0, h, w, k, y)
    requires forall yy :: 0 <= yy < y ==> RowDone(res1[yy], P1[yy], w)
    ensures IsVolume(P, h, w, k) && IsGrid(res, h, w)
    ensures P == Walk(P0, h, w, k, y + 1)
    ensures forall yy :: 0 <= yy <= y ==> RowDone(res[yy], P[yy], w)
  {
    res, P := InteriorRow(res1, P1, h, w, k, y);
    WalkNext(P0, h, w, k, y);
  }

  /** "fix edges": the first and last column of every row, by plain argmax. */
  method Edges(res0: seq<seq<nat>>, P: seq<seq<seq<real>>>, h: nat, w: nat, k: nat) returns (res: seq<seq<nat>>)
    requires IsVolume(P, h, w, k) && IsGrid(res0, h, w) && w >= 1 && k >= 1
    ensures IsGrid(res, h, w)
    ensures forall y, x :: 0 <= y < h && 1 <= x < w - 1 ==> res[y][x] == res0[y][x]
    ensures forall y :: 0 <= y < h ==> EdgesDone(res, P, y, w)
  {
    res := res0;
    var x: nat := w - 1;
    var y := 0;
    while y < h
      invariant 0 <= y <= h
      invariant IsGrid(res, h, w)
      invariant forall yy, xx :: 0 <= yy < h && 1 <= xx < w - 1 ==> res[yy][xx] == res0[yy][xx]
      invariant forall yy :: 0 <= yy < y ==> EdgesDone(res, P, yy, w)
    {
      var last: nat := ArgMax(P[y][x]);
      var row: seq<nat> := res[y][x := last];
      var first: nat := ArgMax(P[y][0]);
      row := row[0 := first];
      var res' := res[y := row];
      assert row[0] == first;
      assert row[w - 1] == if w == 1 then first else last;
      forall yy | 0 <= yy <= y
        ensures EdgesDone(res', P, yy, w)
      {
        if yy < y {
          assert EdgesDone(res, P, yy, w);
        }
      }
      res := res';
      y := y + 1;
    }
  }

  /** The last row, columns `1 .. w-2`, by plain argmax. */
  method LastRow(res0: seq<seq<nat>>, P: seq<seq<seq<real>>>, h: nat, w: nat, k: nat) returns (res: seq<seq<nat>>)
    requires IsVolume(P, h, w, k) && IsGrid(res0, h, w) && h >= 1 && k >= 1
    ensures IsGrid(res, h, w)
    ensures forall y, x :: 0 <= y < h - 1 && 0 <= x < w ==> res[y][x] == res0[y][x]
    ensures forall y, x :: y == h - 1 && 0 <= x < w && (x == 0 || x == w - 1) ==> res[y][x] == res0[y][x]
    ensures forall y, x :: y == h - 1 && 1 <= x < w - 1 ==> Done(res, P, y, x)
  {
    res := res0;
    var y := h - 1;
    var x := 1;
    while x < w - 1
      invariant 1 <= x && (w >= 2 ==> x <= w - 1)
      invariant IsGrid(res, h, w)
      invariant forall yy, xx :: 0 <= yy < h - 1 && 0 <= xx < w ==> res[yy][xx] == res0[yy][xx]
      invariant forall xx :: 0 <= xx < w && (xx == 0 || xx == w - 1) ==> res[y][xx] == res0[y][xx]
      invariant forall xx :: 1 <= xx < x ==> Done(res, P, y, xx)
    {
      var best: nat := ArgMax(P[y][x]);
      var row: seq<nat> := res[y][x := best];
      var res' := res[y := row];
      forall xx | 1 <= xx <= x
        ensures Done(res', P, y, xx)
      {
        if xx < x {
          assert Done(res, P, y, xx);
        }
      }
      res := res';
      x := x + 1;
    }
  }

  /** The fix-ups after the interior walk: the first and last columns, then
      the last row. Every cell ends up holding the argmax of its maps. */
  method Borders(r1: seq<seq<nat>>, P: seq<seq<seq<real>>>, h: nat, w: nat, k: nat) returns (res: seq<seq<nat>>)
    requires IsVolume(P, h, w, k) && IsGrid(r1, h, w) && h >= 1 && w >= 1 && k >= 1
    requires forall y :: 0 <= y < h - 1 ==> RowDone(r1[y], P[y], w)
    ensures IsGrid(res, h, w)
    ensures forall y, x :: 0 <= y < h && 0 <= x < w ==> res[y][x] == ArgMax(P[y][x])
  {
    var r2 := Edges(r1, P, h, w, k);
    res := LastRow(r2, P, h, w, k);
    forall y, x | 0 <= y < h && 0 <= x < w
      ensures res[y][x] == ArgMax(P[y][x])
    {
      if y < h - 1 && 1 <= x < w - 1 {
        assert RowDone(r1[y], P[y], w);
      } else if x == 0 || x == w - 1 {
        assert EdgesDone(r2, P, y, w);
      } else {
        assert Done(res, P, y, x);
      }
    }
  }

  /** The whole scan: the interior raster walk, then the first and last
      columns, then the last row. The maps end as the reference walk leaves
      them, and every cell holds the argmax of its final maps. Returns `res`
      and the final maps. */
  method Scan(P0: seq<seq<seq<real>>>, h: nat, w: nat, k: nat) returns (res: seq<seq<nat>>, P: seq<seq<seq<real>>>)
    requires IsVolume(P0, h, w, k) && h >= 1 && w >= 1 && k >= 1
    ensures IsVolume(P, h, w, k) && IsGrid(res, h, w)
    ensures forall y, x :: 0 <= y < h && 0 <= x < w ==> res[y][x] == ArgMax(P[y][x]) && res[y][x] < k
    ensures P == Walk(P0, h, w, k, h - 1)
    ensures P[0][0] == P0[0][0] && res[0][0] == ArgMax(P0[0][0])
  {
    var r1;
    r1, P := Interior(P0, h, w, k);
    res := Borders(r1, P, h, w, k);
  }
}

=== FILE: naive.dfy ===
/** The naive dithering branch of `Pyx.transform` (`dither="naive"`). Every
    pixel first takes its most probable palette colour; then a checkerboard of
    pixels is visited, and each visited pixel whose second-best probability is
    high enough takes the second-best colour instead. The class probabilities
    (`predict_proba`) are the input, one row per pixel in row-major order. */
module Naive {
  import opened Vectors
  import opened Arith

  /** The row after `probs[np.arange(len(p)), p] = 0`. */
  function Zeroed(v: seq<real>): (z: seq<real>)
    requires |v| > 0
    ensures |z| == |v| && z[ArgMax(v)] == 0.0
    ensures forall j :: 0 <= j < |v| && j != ArgMax(v) ==> z[j] == v[j]
  {
    v[ArgMax(v) := 0.0]
  }

  /** `p2`: the argmax of the zeroed row. */
  function Second(v: seq<real>): (s: nat)
    requires |v| > 0
    ensures s < |v|
    ensures forall j :: 0 <= j < |v| && j != ArgMax(v) ==> v[j] <= Zeroed(v)[s]
  {
    ArgMax(Zeroed(v))
  }

  /** `np.max(probs, axis=1)` of the zeroed row. */
  function Margin(v: seq<real>): (r: real)
    requires |v| > 0
    ensures forall j :: 0 <= j < |v| && j != ArgMax(v) ==> v[j] <= r
    ensures r == 0.0 || exists j :: 0 <= j < |v| && j != ArgMax(v) && v[j] == r
  {
    Zeroed(v)[Second(v)]
  }

  /** `DITHER_NAIVE_BOOST`. */
  const NaiveBoost: real := 1.33

  /** The margin a pixel must exceed to be substituted: `1/(k+1)` on odd rows
      (`v1`), `1/(1.33k+1)` on even rows (`v2`), for `k` palette colours. */
  function Threshold(oddRow: bool, k: nat): (r: real)
    ensures 0.0 < r <= 1.0
    ensures !oddRow ==> r <= 1.0 / (k as real + 1.0)
  {
    if oddRow then 1.0 / (k as real + 1.0) else 1.0 / (k as real * NaiveBoost + 1.0)
  }

  /** The cells of the checkerboard: even row plus column. */
  predicate Candidate(w: nat, j: nat)
    requires w >= 1
  {
    (j / w + j % w) % 2 == 0
  }

  /** Reference definition of the colour index of cell `j`. */
  function Choice(probs: seq<seq<real>>, w: nat, k: nat, j: nat): nat
    requires w >= 1 && j < |probs| && |probs[j]| > 0
  {
    if Candidate(w, j) && Margin(probs[j]) > Threshold((j / w) % 2 == 1, k)
    then Second(probs[j])
    else ArgMax(probs[j])
  }

  /** The index the loop of the source writes when its counter is `i`:
      `i + (i // w) % 2` when the width is even (`pad`), else `i`. */
  function Shifted(w: nat, i: nat): nat
    requires w >= 1
  {
    if w % 2 == 0 then i + (i / w) % 2 else i
  }

  /** The loop counter that reaches candidate `j`. */
  function Origin(w: nat, j: nat): nat
    requires w >= 1
  {
    if w % 2 == 0 && (j / w) % 2 == 1 && j >= 1 then j - 1 else j
  }

  /** Parity bookkeeping for a counter `p + c` in row `r`, where `p` stands
      for `r*w`: the column of an even counter has the parity of its row when
      the width is odd, and is even when the width is even. */
  lemma CounterParity(p: int, r: int, c: int, w: int)
    requires p % 2 == (if w % 2 == 0 then 0 else r % 2) && (p + c) % 2 == 0
    ensures (r + c + (if w % 2 == 0 then r % 2 else 0)) % 2 == 0
    ensures w % 2 == 0 ==> c % 2 == 0
  {
  }

  /** The converse bookkeeping: a candidate's origin is even. */
  lemma CandidateParity(p: int, r: int, c: int, w: int)
    requires p % 2 == (if w % 2 == 0 then 0 else r % 2) && (r + c) % 2 == 0
    ensures (if w % 2 == 0 && r % 2 == 1 then p + c - 1 else p + c) % 2 == 0
    ensures w % 2 == 0 && r % 2 == 1 ==> c % 2 == 1
  {
  }

  /** An even counter, with its column shifted by one on odd rows of an even
      width, lands on a cell whose row plus column is even. */
  lemma ShiftedParity(w: nat, i: nat)
    requires w >= 1 && i % 2 == 0
    ensures (i / w + i % w + (if w % 2 == 0 then (i / w) % 2 else 0)) % 2 == 0
    ensures w % 2 == 0 ==> (i % w) % 2 == 0
  {
    var r, c := i / w, i % w;
    Split(i, w);
    MulParity(r, w);
    CounterParity(r * w, r, c, w);
  }

  /** Row and column of the cell an even counter reaches: the counter's own
      row, and its column shifted by one on odd rows of an even width. */
  lemma ShiftedPosition(w: nat, i: nat)
    requires w >= 1 && i % 2 == 0
    ensures Shifted(w, i) / w == i / w
    ensures Shifted(w, i) % w == i % w + (if w % 2 == 0 then (i / w) % 2 else 0)
    ensures (i / w + i % w + (if w % 2 == 0 then (i / w) % 2 else 0)) % 2 == 0
  {
    var r, c := i / w, i % w;
    var d := if w % 2 == 0 then r % 2 else 0;
    ShiftedParity(w, i);
    assert c + d < w;
    WithinRow(i, w, d);
  }

  /** Each even counter below `h*w` reaches a candidate in the same row, and
      that candidate's origin is the counter. */
  lemma ShiftedIsCandidate(h: nat, w: nat, i: nat)
    requires w >= 1 && i % 2 == 0 && i < h * w
    ensures Shifted(w, i) < h * w
    ensures Shifted(w, i) / w == i / w
    ensures Candidate(w, Shifted(w, i))
    ensures Origin(w, Shifted(w, i)) == i
  {
    ShiftedPosition(w, i);
    var r := i / w;
    RowBound(i, h, w);
    Split(Shifted(w, i), w);
    MulLe(r + 1, h, w);
  }

  /** Every candidate below `h*w` is reached from an even counter. */
  lemma CandidateIsShifted(h: nat, w: nat, j: nat)
    requires w >= 1 && j < h * w && Candidate(w, j)
    ensures Origin(w, j) % 2 == 0 && Origin(w, j) <= j
    ensures Shifted(w, Origin(w, j)) == j
  {
    var r, c := j / w, j % w;
    Split(j, w);
    MulParity(r, w);
    CandidateParity(r * w, r, c, w);
    if w % 2 == 0 && r % 2 == 1 {
      DivModOf(r, w, c - 1);
      assert Origin(w, j) == r * w + (c - 1);
    }
  }

  /** The cells the loop of the source can touch are exactly the candidates:
      the loop's `i += m` shift keeps the checkerboard aligned for even widths,
      and odd widths align it by themselves. */
  lemma ReachedIffCandidate(h: nat, w: nat, j: nat)
    requires w >= 1 && j < h * w
    ensures Candidate(w, j) <==> (exists i :: 0 <= i < h * w && i % 2 == 0 && Shifted(w, i) == j)
  {
    if Candidate(w, j) {
      CandidateIsShifted(h, w, j);
      var i := Origin(w, j);
      assert 0 <= i < h * w && i % 2 == 0 && Shifted(w, i) == j;
    } else {
      forall i | 0 <= i < h * w && i % 2 == 0
        ensures Shifted(w, i) != j
      {
        ShiftedIsCandidate(h, w, i);
      }
    }
  }

  /** Cell `j` has been visited once the counter reaches `i`. */
  predicate Visited(w: nat, j: nat, i: nat)
    requires w >= 1
  {
    Candidate(w, j) && Origin(w, j) < i
  }

  /** Advancing the counter by two visits the cell it reaches and no other. */
  lemma VisitNext(h: nat, w: nat, i: nat, j: nat)
    requires w >= 1 && i % 2 == 0 && i < h * w && j < h * w
    ensures Visited(w, j, i + 2) <==> Visited(w, j, i) || j == Shifted(w, i)
  {
    ShiftedIsCandidate(h, w, i);
    if Candidate(w, j) {
      CandidateIsShifted(h, w, j);
      var o := Origin(w, j);
      if o == i {
        assert j == Shifted(w, i);
      }
    }
  }

  /** Every probability row has one entry per palette colour. */
  ghost predicate WellShaped<C>(probs: seq<seq<real>>, colors: seq<C>) {
    |colors| >= 1 && forall j :: 0 <= j < |probs| ==> |probs[j]| == |colors|
  }

  /** One pass of the loop body for counter `i`: the cell it reaches takes
      the second-best colour when that colour's probability clears the row's
      threshold, so a cell that still holds its best colour ends with its
      reference colour; nothing else changes. */
  method Visit<C>(probs: seq<seq<real>>, colors: seq<C>, h: nat, w: nat, i: nat, out: seq<C>) returns (out': seq<C>)
    requires w >= 1 && |probs| == h * w && WellShaped(probs, colors)
    requires i % 2 == 0 && i < h * w && |out| == h * w
    ensures |out'| == h * w && Shifted(w, i) < h * w
    ensures out[Shifted(w, i)] == colors[ArgMax(probs[Shifted(w, i)])] ==>
      out'[Shifted(w, i)] == colors[Choice(probs, w, |colors|, Shifted(w, i))]
    ensures forall j :: 0 <= j < h * w && j != Shifted(w, i) ==> out'[j] == out[j]
  {
    ShiftedIsCandidate(h, w, i);
    var k := |colors|;
    var m := (i / w) % 2;
    var t := if w % 2 == 0 then i + m else i;
    var v := probs[t];
    out' := out;
    if m == 1 {
      if Margin(v) > Threshold(true, k) {
        out' := out[t := colors[Second(v)]];
      }
    } else if Margin(v) > Threshold(false, k) {
      out' := out[t := colors[Second(v)]];
    }
  }

  /** The naive branch: `X_ = colors[p]`, then the stride-2 walk. */
  method Dither<C>(probs: seq<seq<real>>, colors: seq<C>, h: nat, w: nat) returns (out: seq<C>)
    requires w >= 1 && |probs| == h * w && WellShaped(probs, colors)
    ensures |out| == |probs|
    ensures forall j :: 0 <= j < |out| ==> out[j] == colors[Choice(probs, w, |colors|, j)]
  {
    var n, k := |probs|, |colors|;
    out := seq(n, j requires 0 <= j < n => colors[ArgMax(probs[j])]);
    var i := 0;
    ghost var q := 0;
    while i < n
      invariant i == 2 * q && i <= n + 1
      invariant |out| == n
      invariant forall j :: 0 <= j < n ==>
        out[j] == colors[if Visited(w, j, i) then Choice(probs, w, k, j) else ArgMax(probs[j])]
    {
      ShiftedIsCandidate(h, w, i);
      out := Visit(probs, colors, h, w, i, out);
      forall j | 0 <= j < n
        ensures Visited(w, j, i + 2) <==> Visited(w, j, i) || j == Shifted(w, i)
      {
        VisitNext(h, w, i, j);
      }
      i, q := i + 2, q + 1;
    }
    forall j | 0 <= j < n && Candidate(w, j)
      ensures Visited(w, j, i)
    {
      CandidateIsShifted(h, w, j);
    }
  }

  /** A substituted pixel takes the runner-up: a different colour from the
      best one, at least as probable as every other colour but the best. */
  lemma SecondIsRunnerUp(v: seq<real>)
    requires |v| > 0 && Margin(v) > 0.0
    ensures Second(v) != ArgMax(v)
    ensures forall j :: 0 <= j < |v| && j != ArgMax(v) ==> v[j] <= v[Second(v)] <= v[ArgMax(v)]
  {
    var z := Zeroed(v);
    assert z[ArgMax(v)] == 0.0;
    forall j | 0 <= j < |v| && j != ArgMax(v)
      ensures v[j] <= v[Second(v)]
    {
      assert z[j] == v[j];
    }
  }

  /** A pixel that does not keep its most probable colour takes the
      runner-up, whose probability is positive because both thresholds are. */
  lemma SubstitutionTakesRunnerUp(probs: seq<seq<real>>, w: nat, k: nat, j: nat)
    requires w >= 1 && j < |probs| && |probs[j]| > 0
    requires Choice(probs, w, k, j) != ArgMax(probs[j])
    ensures Choice(probs, w, k, j) == Second(probs[j]) && Second(probs[j]) != ArgMax(probs[j])
    ensures probs[j][Second(probs[j])] > 0.0
    ensures forall c :: 0 <= c < |probs[j]| && c != ArgMax(probs[j]) ==> probs[j][c] <= probs[j][Second(probs[j])]
  {
    var v := probs[j];
    var oddRow := (j / w) % 2 == 1;
    assert Threshold(oddRow, k) > 0.0 by {
      assert k as real + 1.0 > 0.0 && k as real * NaiveBoost + 1.0 > 0.0;
    }
    SecondIsRunnerUp(v);
    assert Zeroed(v)[Second(v)] == v[Second(v)];
  }

  /** Two horizontally adjacent cells of one row are never both candidates,
      so no two substituted pixels sit side by side. */
  lemma NoAdjacentCandidates(w: nat, j: nat)
    requires w >= 1 && j % w + 1 < w
    ensures !(Candidate(w, j) && Candidate(w, j + 1))
  {
    WithinRow(j, w, 1);
  }

  /** A pixel whose colour differs from its most probable one is a candidate. */
  lemma SubstitutedIsCandidate(probs: seq<seq<real>>, w: nat, k: nat, j: nat)
    requires w >= 1 && j < |probs| && |probs[j]| > 0
    requires Choice(probs, w, k, j) != ArgMax(probs[j])
    ensures Candidate(w, j)
    ensures Margin(probs[j]) > Threshold((j / w) % 2 == 1, k)
  {
  }
}

=== FILE: padding.dfy ===
/** `Pyx._pad`: edge-replicating padding of an image so that it can be cut into
    `s`×`s` tiles, and the crop that removes that padding again. An image is a
    sequence of rows; the pixel type `P` is left abstract because the channel
    axis is never padded. */
module Padding {
  import opened Arith

  /** Every row has the same length `w`, and there are `h` rows. */
  ghost predicate IsGrid<P>(X: seq<seq<P>>, h: nat, w: nat) {
    |X| == h && forall i :: 0 <= i < h ==> |X[i]| == w
  }
  /** `np.zeros((h, w), dtype=int)`. */
  function Zeros(h: nat, w: nat): (r: seq<seq<nat>>)
    ensures IsGrid(r, h, w)
    ensures forall y, x :: 0 <= y < h && 0 <= x < w ==> r[y][x] == 0
  {
    seq(h, _ => seq(w, _ => 0))
  }


  /** All rows have the length of the first one. */
  ghost predicate Rectangular<P>(X: seq<seq<P>>) {
    IsGrid(X, |X|, Width(X))
  }

  function Width<P>(X: seq<seq<P>>): nat {
    if |X| == 0 then 0 else |X[0]|
  }

  /** Rows (or columns) added in front: `1 if n % s > 0 else 0`. */
  function Before(n: nat, s: nat): nat
    requires s >= 1
  {
    if n % s > 0 then 1 else 0
  }

  /** Rows (or columns) added behind: `1 if n % s == 1 else 0`. */
  function After(n: nat, s: nat): nat
    requires s >= 1
  {
    if n % s == 1 then 1 else 0
  }

  /** Total border added along an axis of length `n`. */
  function Added(n: nat, s: nat): (t: nat)
    requires s >= 1
    ensures t == if n % s == 0 then 0 else if n % s == 1 then 2 else 1
  {
    Before(n, s) + After(n, s)
  }

  /** The index of the nearest position inside `[0, n)`. */
  function Clamp(i: int, n: nat): (c: nat)
    requires n > 0
    ensures c < n
    ensures 0 <= i < n ==> c == i
  {
    if i < 0 then 0 else if i >= n then n - 1 else i
  }

  /** `np.pad(s, (before, after), "edge")` along one axis. */
  function EdgeExtend<T>(s: seq<T>, before: nat, after: nat): (r: seq<T>)
    requires |s| > 0 || before + after == 0
    ensures |r| == before + |s| + after
    ensures |s| > 0 ==> forall i :: 0 <= i < |r| ==> r[i] == s[Clamp(i - before, |s|)]
  {
    if |s| == 0 then s
    else seq(before, _ => s[0]) + s + seq(after, _ => s[|s| - 1])
  }

  /** Edge padding with explicit border widths: `bh` rows in front and `ah`
      behind, `bw` columns in front and `aw` behind. */
  function PadBy<P>(X: seq<seq<P>>, w: nat, bh: nat, ah: nat, bw: nat, aw: nat): (r: seq<seq<P>>)
    requires IsGrid(X, |X|, w) && (|X| > 0 || bh + ah == 0) && (w > 0 || bw + aw == 0)
    ensures IsGrid(r, bh + |X| + ah, bw + w + aw)
  {
    var cols := seq(|X|, i requires 0 <= i < |X| => EdgeExtend(X[i], bw, aw));
    EdgeExtend(cols, bh, ah)
  }

  /** Every pixel of `PadBy` copies the nearest pixel of the image. */
  lemma PadByCopiesNearest<P>(X: seq<seq<P>>, w: nat, bh: nat, ah: nat, bw: nat, aw: nat, i: nat, j: nat)
    requires IsGrid(X, |X|, w) && (|X| > 0 || bh + ah == 0) && (w > 0 || bw + aw == 0)
    requires i < bh + |X| + ah && j < bw + w + aw
    ensures |X| > 0 && w > 0
    ensures PadBy(X, w, bh, ah, bw, aw)[i][j] == X[Clamp(i - bh, |X|)][Clamp(j - bw, w)]
  {
    var cols := seq(|X|, i requires 0 <= i < |X| => EdgeExtend(X[i], bw, aw));
    assert PadBy(X, w, bh, ah, bw, aw)[i] == cols[Clamp(i - bh, |X|)];
  }

  /** `_pad(X, s)`: pad the rows, then the columns, by replicating the edge. */
  function Pad<P>(X: seq<seq<P>>, s: nat): (r: seq<seq<P>>)
    requires s >= 1 && Rectangular(X)
    ensures IsGrid(r, |X| + Added(|X|, s), Width(X) + Added(Width(X), s))
  {
    PadBy(X, Width(X), Before(|X|, s), After(|X|, s), Before(Width(X), s), After(Width(X), s))
  }

  /** Every padded pixel copies the nearest pixel of the image. */
  lemma PadCopiesNearest<P>(X: seq<seq<P>>, s: nat, i: nat, j: nat)
    requires s >= 1 && Rectangular(X)
    requires i < |X| + Added(|X|, s) && j < Width(X) + Added(Width(X), s)
    ensures |X| > 0 && Width(X) > 0
    ensures Pad(X, s)[i][j] == X[Clamp(i - Before(|X|, s), |X|)][Clamp(j - Before(Width(X), s), Width(X))]
  {
    var h, w := |X|, Width(X);
    NoPadWhenDivisible(0, s);
    assert Added(h, s) == Before(h, s) + After(h, s) && Added(w, s) == Before(w, s) + After(w, s);
    PadByCopiesNearest(X, w, Before(h, s), After(h, s), Before(w, s), After(w, s), i, j);
  }

  /** The original image sits unchanged inside the padded one, shifted by
      the front border. */
  lemma PadKeepsInterior<P>(X: seq<seq<P>>, s: nat, i: nat, j: nat)
    requires s >= 1 && Rectangular(X) && i < |X| && j < Width(X)
    ensures i + Before(|X|, s) < |X| + Added(|X|, s) && j + Before(Width(X), s) < Width(X) + Added(Width(X), s)
    ensures Pad(X, s)[i + Before(|X|, s)][j + Before(Width(X), s)] == X[i][j]
  {
    var bi, bj := i + Before(|X|, s), j + Before(Width(X), s);
    PadCopiesNearest(X, s, bi, bj);
    assert Clamp(bi - Before(|X|, s), |X|) == i && Clamp(bj - Before(Width(X), s), Width(X)) == j;
  }

  /** Python's `s[start:(-1 if dropLast else None)]`, including its clamping
      of out-of-range bounds. */
  function Slice<T>(s: seq<T>, start: nat, dropLast: bool): (r: seq<T>)
    ensures start + (if dropLast then 1 else 0) <= |s| ==>
      |r| == |s| - start - (if dropLast then 1 else 0) &&
      forall i :: 0 <= i < |r| ==> r[i] == s[start + i]
  {
    var stop := if !dropLast then |s| else if |s| >= 1 then |s| - 1 else 0;
    var lo := if start <= |s| then start else |s|;
    if lo <= stop then s[lo..stop] else []
  }

  /** The crop with explicit border widths: drop `bh` rows in front and one
      behind when `dropH`, and likewise for the columns. */
  function UnpadBy<P>(Y: seq<seq<P>>, bh: nat, dropH: bool, bw: nat, dropW: bool): (r: seq<seq<P>>)
  {
    var rows := Slice(Y, bh, dropH);
    seq(|rows|, i requires 0 <= i < |rows| => Slice(rows[i], bw, dropW))
  }

  /** `UnpadBy` leaves an `nh`×`nw` grid of one whose borders have the given
      widths. */
  lemma UnpadByGrid<P>(Y: seq<seq<P>>, nh: nat, nw: nat, bh: nat, dropH: bool, bw: nat, dropW: bool)
    requires IsGrid(Y, bh + nh + (if dropH then 1 else 0), bw + nw + (if dropW then 1 else 0))
    ensures IsGrid(UnpadBy(Y, bh, dropH, bw, dropW), nh, nw)
  {
  }

  /** Pixel `(i, j)` of what `UnpadBy` keeps is pixel `(i + bh, j + bw)`. */
  lemma UnpadByAt<P>(Y: seq<seq<P>>, nh: nat, nw: nat, bh: nat, dropH: bool, bw: nat, dropW: bool, i: nat, j: nat)
    requires IsGrid(Y, bh + nh + (if dropH then 1 else 0), bw + nw + (if dropW then 1 else 0))
    requires i < nh && j < nw
    ensures IsGrid(UnpadBy(Y, bh, dropH, bw, dropW), nh, nw)
    ensures UnpadBy(Y, bh, dropH, bw, dropW)[i][j] == Y[i + bh][j + bw]
  {
    UnpadByGrid(Y, nh, nw, bh, dropH, bw, dropW);
  }

  /** `_pad(Y, s, nh, nw)`: remove the border that `_pad(X, s)` adds to an
      `nh`×`nw` image. */
  function Unpad<P>(Y: seq<seq<P>>, s: nat, nh: nat, nw: nat): (r: seq<seq<P>>)
    requires s >= 1
    ensures IsGrid(Y, nh + Added(nh, s), nw + Added(nw, s)) ==>
      IsGrid(r, nh, nw) &&
      forall i, j :: 0 <= i < nh && 0 <= j < nw ==> r[i][j] == Y[i + Before(nh, s)][j + Before(nw, s)]
  {
    UnpadBy(Y, Before(nh, s), After(nh, s) == 1, Before(nw, s), After(nw, s) == 1)
  }

  /** Pixel `(i, j)` of the cropped image is pixel `(i, j)` shifted by the
      front border. */
  lemma UnpadAt<P>(Y: seq<seq<P>>, s: nat, nh: nat, nw: nat, i: nat, j: nat)
    requires s >= 1 && IsGrid(Y, nh + Added(nh, s), nw + Added(nw, s)) && i < nh && j < nw
    ensures IsGrid(Unpad(Y, s, nh, nw), nh, nw)
    ensures Unpad(Y, s, nh, nw)[i][j] == Y[i + Before(nh, s)][j + Before(nw, s)]
  {
  }

  /** One pixel of the round trip with explicit border widths. */
  lemma UnpadByPadByAt<P>(X: seq<seq<P>>, w: nat, bh: nat, ah: nat, bw: nat, aw: nat, i: nat, j: nat)
    requires IsGrid(X, |X|, w) && (|X| > 0 || bh + ah == 0) && (w > 0 || bw + aw == 0)
    requires ah <= 1 && aw <= 1 && i < |X| && j < w
    ensures IsGrid(UnpadBy(PadBy(X, w, bh, ah, bw, aw), bh, ah == 1, bw, aw == 1), |X|, w)
    ensures UnpadBy(PadBy(X, w, bh, ah, bw, aw), bh, ah == 1, bw, aw == 1)[i][j] == X[i][j]
  {
    var Y := PadBy(X, w, bh, ah, bw, aw);
    assert IsGrid(Y, bh + |X| + (if ah == 1 then 1 else 0), bw + w + (if aw == 1 then 1 else 0));
    UnpadByAt(Y, |X|, w, bh, ah == 1, bw, aw == 1, i, j);
    PadByCopiesNearest(X, w, bh, ah, bw, aw, i + bh, j + bw);
    assert Clamp(i + bh - bh, |X|) == i && Clamp(j + bw - bw, w) == j;
    assert Y[i + bh][j + bw] == X[i][j];
  }

  /** One row of the round trip with explicit border widths. */
  lemma UnpadByPadByRow<P>(X: seq<seq<P>>, w: nat, bh: nat, ah: nat, bw: nat, aw: nat, i: nat)
    requires IsGrid(X, |X|, w) && (|X| > 0 || bh + ah == 0) && (w > 0 || bw + aw == 0)
    requires ah <= 1 && aw <= 1 && i < |X|
    ensures IsGrid(UnpadBy(PadBy(X, w, bh, ah, bw, aw), bh, ah == 1, bw, aw == 1), |X|, w)
    ensures UnpadBy(PadBy(X, w, bh, ah, bw, aw), bh, ah == 1, bw, aw == 1)[i] == X[i]
  {
    var r := UnpadBy(PadBy(X, w, bh, ah, bw, aw), bh, ah == 1, bw, aw == 1);
    UnpadByGrid(PadBy(X, w, bh, ah, bw, aw), |X|, w, bh, ah == 1, bw, aw == 1);
    assert |r[i]| == |X[i]|;
    forall j | 0 <= j < w
      ensures r[i][j] == X[i][j]
    {
      UnpadByPadByAt(X, w, bh, ah, bw, aw, i, j);
    }
  }

  /** The round trip with explicit border widths of at most one behind. */
  lemma UnpadByPadBy<P>(X: seq<seq<P>>, w: nat, bh: nat, ah: nat, bw: nat, aw: nat)
    requires IsGrid(X, |X|, w) && (|X| > 0 || bh + ah == 0) && (w > 0 || bw + aw == 0)
    requires ah <= 1 && aw <= 1
    ensures UnpadBy(PadBy(X, w, bh, ah, bw, aw), bh, ah == 1, bw, aw == 1) == X
  {
    var r := UnpadBy(PadBy(X, w, bh, ah, bw, aw), bh, ah == 1, bw, aw == 1);
    UnpadByGrid(PadBy(X, w, bh, ah, bw, aw), |X|, w, bh, ah == 1, bw, aw == 1);
    assert |r| == |X|;
    forall i | 0 <= i < |X|
      ensures r[i] == X[i]
    {
      UnpadByPadByRow(X, w, bh, ah, bw, aw, i);
    }
  }

  /** Unpadding after padding gives back the image, for every tile size. */
  lemma UnpadPad<P>(X: seq<seq<P>>, s: nat)
    requires s >= 1 && Rectangular(X)
    ensures Unpad(Pad(X, s), s, |X|, Width(X)) == X
  {
    UnpadByPadBy(X, Width(X), Before(|X|, s), After(|X|, s), Before(Width(X), s), After(Width(X), s));
  }

  /** The padded length is a multiple of `s` exactly for remainders 0, for
      remainder 1 when `s == 3`, and for remainder `s - 1` when that is at
      least 2. In particular an odd length padded for `s == 2` is still odd. */
  lemma PaddedDivisible(n: nat, s: nat)
    requires s >= 2
    ensures (n + Added(n, s)) % s == 0 <==>
      n % s == 0 || (n % s == 1 && s == 3) || (n % s >= 2 && n % s == s - 1)
  {
    var m := n % s;
    if m == 1 {
      if s <= 3 {
        WrapRow(n, s, 2);
      } else {
        WithinRow(n, s, 2);
      }
    } else if m >= 2 {
      if m == s - 1 {
        WrapRow(n, s, 1);
      } else {
        WithinRow(n, s, 1);
      }
    }
  }

  /** With the 3×3 tiles used by `_dilate` and `_median` the padded image
      always divides into tiles. */
  lemma PaddedByThree(n: nat)
    ensures (n + Added(n, 3)) % 3 == 0
  {
    PaddedDivisible(n, 3);
  }

  /** An axis already divisible by `s` is not padded. */
  lemma NoPadWhenDivisible(n: nat, s: nat)
    requires s >= 1 && n % s == 0
    ensures Added(n, s) == 0 && Before(n, s) == 0 && After(n, s) == 0
  {
  }
}

=== FILE: palette.dfy ===
/** The integer quantisation of the automatically found palette in
    `Pyx.colors` and its duplicate-colour check. The HSV saturation and value
    boost that precedes it is floating-point colour conversion and is not part
    of this model: its result, a channel value that is nominally in `[0, 1]`,
    is the input here. */
module Palette {

  /** `COLOR_QUANT`. */
  const ColorQuant: int := 8

  /** `np.clip(v, 0, 255)`. */
  function Clip(v: int): (r: int)
    ensures 0 <= r <= 255
    ensures 0 <= v <= 255 ==> r == v
  {
    if v < 0 then 0 else if v > 255 then 255 else v
  }

  /** The quantisation on an integer level `v`: round down to a multiple of
      `COLOR_QUANT`, clip to `[0, 255]`, then send everything below
      `2 * COLOR_QUANT` to 0 and everything above `255 - 2 * COLOR_QUANT`
      to 255. Dafny's `/` by a positive constant rounds down like Python's `//`. */
  function QuantizeLevel(v: int): (r: int)
    ensures 0 <= r <= 255
  {
    var c := Clip(v / ColorQuant * ColorQuant);
    if c < ColorQuant * 2 then 0 else if c > 255 - ColorQuant * 2 then 255 else c
  }

  /** The values a quantised channel can take: black, full intensity, or a
      multiple of 8 from 16 to 232. */
  predicate IsLevel(c: int) {
    c == 0 || c == 255 || (16 <= c <= 232 && c % 8 == 0)
  }

  /** `np.clip(c * 255 // 8 * 8, 0, 255).astype(int)` followed by the two
      masked assignments, on one channel value `c`. */
  function QuantizeChannel(c: real): (r: int)
    ensures IsLevel(r)
  {
    var q := (c * 255.0 / 8.0).Floor * ColorQuant;
    var cl := Clip(q);
    if cl < ColorQuant * 2 then 0 else if cl > 255 - ColorQuant * 2 then 255 else cl
  }

  /** Every quantised level is one of the allowed values. */
  lemma QuantizeLevelIsLevel(v: int)
    ensures IsLevel(QuantizeLevel(v))
  {
    var c := Clip(v / 8 * 8);
    if 16 <= c <= 239 {
      assert c == v / 8 * 8;
      assert c % 8 == 0;
    }
  }

  /** The quantised level by ranges of the input: 0 below 16, 255 from 240
      on, and in between the multiple of 8 at or just below `v`. */
  lemma QuantizeLevelRanges(v: int)
    ensures v < 16 ==> QuantizeLevel(v) == 0
    ensures 16 <= v < 240 ==> QuantizeLevel(v) % 8 == 0 && QuantizeLevel(v) <= v < QuantizeLevel(v) + 8
    ensures v >= 240 ==> QuantizeLevel(v) == 255
  {
    var q := v / 8 * 8;
    assert q <= v < q + 8;
    if 16 <= v < 240 {
      assert 16 <= q <= 232 && q % 8 == 0;
    }
  }

  /** Quantising a quantised level changes nothing. */
  lemma QuantizeLevelIdempotent(v: int)
    ensures QuantizeLevel(QuantizeLevel(v)) == QuantizeLevel(v)
  {
    QuantizeLevelIsLevel(v);
    var c := QuantizeLevel(v);
    if c != 0 && c != 255 {
      assert c / 8 * 8 == c;
    }
  }

  /** A larger level never quantises to a smaller one. */
  lemma QuantizeLevelMonotone(v: int, v': int)
    requires v <= v'
    ensures QuantizeLevel(v) <= QuantizeLevel(v')
  {
    assert v / 8 <= v' / 8;
  }

  /** `floor(x / 8) == floor(x) // 8`: rounding down before dividing by 8
      does not change the quotient. */
  lemma FloorDiv8(x: real)
    ensures (x / 8.0).Floor == x.Floor / 8
  {
    var n := x.Floor;
    var q := n / 8;
    assert q as real * 8.0 <= n as real <= x;
    assert x < n as real + 1.0 <= q as real * 8.0 + 8.0;
  }

  /** The float computation agrees with the integer quantisation of the
      channel scaled to `[0, 255]` and rounded down. */
  lemma ChannelIsLevelOfFloor(c: real)
    ensures QuantizeChannel(c) == QuantizeLevel((c * 255.0).Floor)
  {
    FloorDiv8(c * 255.0);
  }

  /** An RGB triple of the palette. */
  type Rgb = (int, int, int)

  /** The quantised palette, one RGB triple per cluster mean. `boosted` holds
      the cluster means after the HSV saturation boost and the conversion
      back to RGB, which are outside this model. */
  function Quantize(boosted: seq<(real, real, real)>): (r: seq<Rgb>)
    ensures |r| == |boosted|
    ensures forall i :: 0 <= i < |r| ==>
      r[i].0 == QuantizeChannel(boosted[i].0) && r[i].1 == QuantizeChannel(boosted[i].1) && r[i].2 == QuantizeChannel(boosted[i].2)
  {
    seq(|boosted|, i requires 0 <= i < |boosted| =>
      (QuantizeChannel(boosted[i].0), QuantizeChannel(boosted[i].1), QuantizeChannel(boosted[i].2)))
  }

  /** Quantising a channel of the palette again changes nothing: every
      palette colour is a fixed point of the level quantisation. */
  lemma QuantizeFixesPalette(boosted: seq<(real, real, real)>, i: nat)
    requires i < |boosted|
    ensures var c := Quantize(boosted)[i];
      QuantizeLevel(c.0) == c.0 && QuantizeLevel(c.1) == c.1 && QuantizeLevel(c.2) == c.2
  {
    var b := boosted[i];
    ChannelIsLevelOfFloor(b.0);
    ChannelIsLevelOfFloor(b.1);
    ChannelIsLevelOfFloor(b.2);
    QuantizeLevelIdempotent((b.0 * 255.0).Floor);
    QuantizeLevelIdempotent((b.1 * 255.0).Floor);
    QuantizeLevelIdempotent((b.2 * 255.0).Floor);
  }

  /** The distinct colours of a palette. */
  function Distinct(cs: seq<Rgb>): set<Rgb> {
    set i | 0 <= i < |cs| :: cs[i]
  }

  /** `len(np.unique(...)) != len(c)`: the "Some colors are redundant"
      warning, raised as a flag. */
  function Redundant(cs: seq<Rgb>): (r: bool)
    ensures r <==> !NoDuplicates(cs)
  {
    DistinctCount(cs);
    |Distinct(cs)| != |cs|
  }

  /** No colour occurs twice. */
  ghost predicate NoDuplicates(cs: seq<Rgb>) {
    forall i, j :: 0 <= i < j < |cs| ==> cs[i] != cs[j]
  }

  /** The distinct colours of a prefix and one more colour. */
  lemma DistinctSnoc(cs: seq<Rgb>)
    requires |cs| > 0
    ensures Distinct(cs) == Distinct(cs[..|cs| - 1]) + {cs[|cs| - 1]}
  {
    var p := cs[..|cs| - 1];
    forall x | x in Distinct(cs)
      ensures x in Distinct(p) + {cs[|cs| - 1]}
    {
      var i :| 0 <= i < |cs| && cs[i] == x;
      if i < |cs| - 1 {
        assert p[i] == x;
      }
    }
    forall x | x in Distinct(p)
      ensures x in Distinct(cs)
    {
      var i :| 0 <= i < |p| && p[i] == x;
      assert cs[i] == x;
    }
  }

  /** A palette has at most as many distinct colours as entries, and as many
      exactly when no colour occurs twice. */
  lemma {:induction false} DistinctCount(cs: seq<Rgb>)
    ensures |Distinct(cs)| <= |cs|
    ensures |Distinct(cs)| == |cs| <==> NoDuplicates(cs)
  {
    if |cs| == 0 {
      assert Distinct(cs) == {};
    } else {
      var n := |cs| - 1;
      var p := cs[..n];
      DistinctCount(p);
      DistinctSnoc(cs);
      if cs[n] in Distinct(p) {
        var i :| 0 <= i < |p| && p[i] == cs[n];
        assert cs[i] == cs[n];
        assert !NoDuplicates(cs);
      } else if NoDuplicates(p) {
        forall i, j | 0 <= i < j < |cs|
          ensures cs[i] != cs[j]
        {
          if j < n {
            assert p[i] == cs[i] && p[j] == cs[j];
          } else {
            assert p[i] == cs[i];
          }
        }
      } else {
        var i, j :| 0 <= i < j < |p| && p[i] == p[j];
        assert cs[i] == cs[j];
      }
    }
  }

  /** The warning is raised exactly when two palette entries coincide. */
  lemma RedundantIffDuplicate(cs: seq<Rgb>)
    ensures Redundant(cs) <==> exists i, j :: 0 <= i < j < |cs| && cs[i] == cs[j]
  {
    DistinctCount(cs);
  }
}

=== FILE: pipeline.dfy ===
/** The shape arithmetic of `Pyx.transform`: the image is resized to the
    target size times `sobel ** depth`, shrunk `depth` times by `_pyxelate`
    (pad for `sobel`×`sobel` tiles, one output pixel per tile), and finally
    enlarged by the upscale factors. Pixel values are not followed here. */
module Pipeline {
  import opened Wrappers
  import opened Arith
  import opened Padding
  import opened Settings

  /** `s ** d`. */
  function Power(s: nat, d: nat): nat {
    if d == 0 then 1 else s * Power(s, d - 1)
  }

  /** The length of one axis after `_pyxelate`: the padded length divided
      into tiles of `s`; `view_as_blocks` refuses a length that does not
      divide. */
  function TileCount(n: nat, s: nat): (r: Option<nat>)
    requires s >= 1
    ensures r.Some? <==> (n + Added(n, s)) % s == 0
    ensures r.Some? ==> r.value * s == n + Added(n, s)
  {
    var p := n + Added(n, s);
    if p % s == 0 then Some(p / s) else None
  }

  /** With tiles of at least 2, a round never lengthens an axis: the border
      adds at most 2 cells, and dividing by `s` takes away at least half. */
  lemma TileCountShrinks(n: nat, s: nat)
    requires s >= 1 && TileCount(n, s).Some?
    ensures s >= 2 ==> TileCount(n, s).value <= n
  {
    if s >= 2 {
      var m, a := TileCount(n, s).value, Added(n, s);
      assert m * s == n + a && a <= 2;
      if n == 0 {
        assert a == 0;
        if m >= 1 {
          MulLe(1, m, s);
        }
      } else {
        MulLe(2, s, m);
        assert 2 * m <= n + a;
        if n == 1 {
          assert 1 % s == 1;
        }
      }
    }
  }

  /** `depth` rounds of `_pyxelate` on one axis. */
  function Shrink(n: nat, s: nat, d: nat): (r: Option<nat>)
    requires s >= 1
    ensures s == 1 ==> r == Some(n)
    decreases d
  {
    if d == 0 then Some(n)
    else match TileCount(n, s)
      case None => None
      case Some(m) => Shrink(m, s, d - 1)
  }

  /** With tiles of at least 2, the rounds never lengthen an axis. */
  lemma {:induction false} ShrinkNoLonger(n: nat, s: nat, d: nat)
    requires s >= 2 && Shrink(n, s, d).Some?
    ensures Shrink(n, s, d).value <= n
    decreases d
  {
    if d > 0 {
      var m := TileCount(n, s).value;
      TileCountShrinks(n, s);
      ShrinkNoLonger(m, s, d - 1);
    }
  }

  /** A length that is already a multiple of the tile size is not padded and
      shrinks by exactly that factor. */
  lemma TileCountExact(m: nat, s: nat)
    requires s >= 1
    ensures TileCount(m * s, s) == Some(m)
  {
    DivModOf(m, s, 0);
    NoPadWhenDivisible(m * s, s);
  }

  lemma MulPower(m: nat, s: nat, d: nat)
    requires d >= 1
    ensures m * Power(s, d) == (m * Power(s, d - 1)) * s
  {
  }

  /** Resizing to `m * s**d` first makes every round divisible, so `depth`
      rounds end at exactly `m`. */
  lemma {:induction false} ShrinkExact(m: nat, s: nat, d: nat)
    requires s >= 1
    ensures Shrink(m * Power(s, d), s, d) == Some(m)
  {
    if d > 0 {
      var m' := m * Power(s, d - 1);
      MulPower(m, s, d);
      TileCountExact(m', s);
      ShrinkExact(m, s, d - 1);
    }
  }

  /** Which lengths `_pyxelate` accepts, for tile sizes of at least 2. */
  lemma TileCountDefined(n: nat, s: nat)
    requires s >= 2
    ensures TileCount(n, s).Some? <==>
      n % s == 0 || (n % s == 1 && s == 3) || (n % s >= 2 && n % s == s - 1)
  {
    PaddedDivisible(n, s);
  }

  /** With the default tile size 3 every length is accepted. */
  lemma TileCountThree(n: nat)
    ensures TileCount(n, 3).Some?
  {
    PaddedByThree(n);
  }

  /** Why `transform` stops: one of its initial assertions; a target size
      with a zero side, which leaves the resize and the mixture model's
      prediction with an empty image; or an upscale factor that is not an
      integer (`np.repeat` accepts integer counts only). */
  datatype PipelineError = Rejected(cause: TransformError) | EmptyTarget | NonIntegerUpscale

  /** One axis through the pipeline: resized to `n * s**d`, shrunk `d`
      times, repeated `u` times. It ends at the target length times `u`. */
  function AxisSize(n: nat, s: nat, d: nat, u: nat): (r: nat)
    requires s >= 1
    ensures r == n * u
  {
    ShrinkExact(n, s, d);
    Shrink(n * Power(s, d), s, d).value * u
  }

  /** Height and width of the image `transform` returns for an `h`×`w` input. */
  function OutputSize<C>(c: Config<C>, fitted: bool, h: nat, w: nat): (r: Result<(nat, nat), PipelineError>)
    requires Valid(c)
    ensures r.Ok? <==>
      CheckTransform(c, fitted, h, w).Ok? && GetSize(c, h, w).0 >= 1 && GetSize(c, h, w).1 >= 1 &&
      c.upscale.0.Int? && c.upscale.1.Int?
    ensures (r == Err(EmptyTarget)) <==>
      CheckTransform(c, fitted, h, w).Ok? && (GetSize(c, h, w).0 == 0 || GetSize(c, h, w).1 == 0)
    ensures (r == Err(NonIntegerUpscale)) <==>
      CheckTransform(c, fitted, h, w).Ok? && GetSize(c, h, w).0 >= 1 && GetSize(c, h, w).1 >= 1 &&
      !(c.upscale.0.Int? && c.upscale.1.Int?)
    ensures CheckTransform(c, fitted, h, w).Err? ==> r == Err(Rejected(CheckTransform(c, fitted, h, w).error))
    ensures r.Ok? ==>
      r.value == (GetSize(c, h, w).0 * c.upscale.0.i, GetSize(c, h, w).1 * c.upscale.1.i)
  {
    match CheckTransform(c, fitted, h, w)
    case Err(e) => Err(Rejected(e))
    case Ok(size) =>
      if size.0 == 0 || size.1 == 0 then Err(EmptyTarget)
      else if !(c.upscale.0.Int? && c.upscale.1.Int?) then Err(NonIntegerUpscale)
      else
        Ok((AxisSize(size.0, c.sobel, c.depth, c.upscale.0.i), AxisSize(size.1, c.sobel, c.depth, c.upscale.1.i)))
  }
}

=== FILE: raster.dfy ===
/** Images whose every pixel carries a vector of reals: the per-colour
    probability maps of the Floyd–Steinberg-like scan (`probs[:, y, x]`) and the
    RGB working buffer of the Atkinson-like scan (`X_[y, x, :3]`). Indexed
    `[row][column][component]`. */
module Raster {
  import opened Vectors

  /** An `h`×`w` raster of vectors of length `k`. */
  ghost predicate IsVolume(P: seq<seq<seq<real>>>, h: nat, w: nat, k: nat) {
    |P| == h && forall y :: 0 <= y < h ==> IsRow(P[y], w, k)
  }

  /** A row of `w` vectors of length `k`. */
  ghost predicate IsRow(row: seq<seq<real>>, w: nat, k: nat) {
    |row| == w && forall x :: 0 <= x < w ==> |row[x]| == k
  }

  /** Every pixel vector of a row has component `c`. */
  ghost predicate RowHas(row: seq<seq<real>>, c: nat) {
    forall x :: 0 <= x < |row| ==> c < |row[x]|
  }

  ghost predicate Has(P: seq<seq<seq<real>>>, c: nat) {
    forall y :: 0 <= y < |P| ==> RowHas(P[y], c)
  }

  /** Total of component `c` over the first `n` pixels of a row. */
  function RowMass(row: seq<seq<real>>, c: nat, n: nat): real
    requires n <= |row| && RowHas(row, c)
  {
    if n == 0 then 0.0 else RowMass(row, c, n - 1) + row[n - 1][c]
  }

  /** Total of component `c` over the first `n` rows. */
  function MassUpTo(P: seq<seq<seq<real>>>, c: nat, n: nat): real
    requires n <= |P| && Has(P, c)
  {
    if n == 0 then 0.0 else MassUpTo(P, c, n - 1) + RowMass(P[n - 1], c, |P[n - 1]|)
  }

  /** Total of component `c` over all pixels. */
  function Mass(P: seq<seq<seq<real>>>, c: nat): real
    requires Has(P, c)
  {
    MassUpTo(P, c, |P|)
  }

  /** Replacing one pixel changes the row total by the difference. */
  lemma {:induction false} RowMassUpdate(row: seq<seq<real>>, x: nat, v: seq<real>, c: nat, n: nat)
    requires x < |row| && n <= |row| && RowHas(row, c) && c < |v|
    ensures RowHas(row[x := v], c)
    ensures RowMass(row[x := v], c, n) == RowMass(row, c, n) + (if x < n then v[c] - row[x][c] else 0.0)
  {
    if n > 0 {
      RowMassUpdate(row, x, v, c, n - 1);
    }
  }

  /** Replacing one row changes the total by the difference. */
  lemma {:induction false} MassUpdate(P: seq<seq<seq<real>>>, y: nat, row: seq<seq<real>>, c: nat, n: nat)
    requires y < |P| && n <= |P| && Has(P, c) && RowHas(row, c)
    ensures Has(P[y := row], c)
    ensures MassUpTo(P[y := row], c, n) ==
      MassUpTo(P, c, n) + (if y < n then RowMass(row, c, |row|) - RowMass(P[y], c, |P[y]|) else 0.0)
  {
    if n > 0 {
      MassUpdate(P, y, row, c, n - 1);
    }
  }

  /** `P[y, x] += e`. */
  function AddAt(P: seq<seq<seq<real>>>, h: nat, w: nat, k: nat, y: nat, x: nat, e: seq<real>): (r: seq<seq<seq<real>>>)
    requires IsVolume(P, h, w, k) && y < h && x < w && |e| == k
    ensures IsVolume(r, h, w, k)
    ensures r[y][x] == Add(P[y][x], e)
    ensures forall yy {:trigger r[yy]} :: 0 <= yy < h && yy != y ==> r[yy] == P[yy]
    ensures forall xx {:trigger r[y][xx]} :: 0 <= xx < w && xx != x ==> r[y][xx] == P[y][xx]
  {
    P[y := P[y][x := Add(P[y][x], e)]]
  }

  /** Adding `e` at one pixel adds `e[c]` to the total of component `c`. */
  lemma MassAddAt(P: seq<seq<seq<real>>>, h: nat, w: nat, k: nat, y: nat, x: nat, e: seq<real>, c: nat)
    requires IsVolume(P, h, w, k) && y < h && x < w && |e| == k && c < k
    ensures Has(P, c) && Has(AddAt(P, h, w, k, y, x, e), c)
    ensures Mass(AddAt(P, h, w, k, y, x, e), c) == Mass(P, c) + e[c]
  {
    assert Has(P, c);
    var v := Add(P[y][x], e);
    RowMassUpdate(P[y], x, v, c, w);
    MassUpdate(P, y, P[y][x := v], c, h);
  }

  /** Every target cell lies inside an `h`×`w` raster. */
  ghost predicate InBounds(ts: seq<(nat, nat)>, h: nat, w: nat) {
    forall i :: 0 <= i < |ts| ==> ts[i].0 < h && ts[i].1 < w
  }

  /** `n` copies of `d` added up. */
  function Times(n: nat, d: real): real {
    if n == 0 then 0.0 else Times(n - 1, d) + d
  }

  lemma {:induction false} TimesIsProduct(n: nat, d: real)
    ensures Times(n, d) == n as real * d
  {
    if n > 0 {
      TimesIsProduct(n - 1, d);
      assert (n - 1) as real * d + d == n as real * d;
    }
  }

  /** No cell occurs twice in a list of targets. */
  ghost predicate NoRepeats(ts: seq<(nat, nat)>) {
    forall i, j :: 0 <= i < j < |ts| ==> ts[i] != ts[j]
  }

  /** `P[t] += e` for each target `t` in turn. */
  function AddAll(P: seq<seq<seq<real>>>, h: nat, w: nat, k: nat, ts: seq<(nat, nat)>, e: seq<real>): (r: seq<seq<seq<real>>>)
    requires IsVolume(P, h, w, k) && InBounds(ts, h, w) && |e| == k
    ensures IsVolume(r, h, w, k)
    decreases |ts|
  {
    if ts == [] then P else AddAll(AddAt(P, h, w, k, ts[0].0, ts[0].1, e), h, w, k, ts[1..], e)
  }

  /** A cell that is not a target keeps its vector. */
  lemma {:induction false} AddAllFrame(P: seq<seq<seq<real>>>, h: nat, w: nat, k: nat, ts: seq<(nat, nat)>, e: seq<real>, yy: nat, xx: nat)
    requires IsVolume(P, h, w, k) && InBounds(ts, h, w) && |e| == k
    requires yy < h && xx < w && (yy, xx) !in ts
    ensures AddAll(P, h, w, k, ts, e)[yy][xx] == P[yy][xx]
    decreases |ts|
  {
    if ts != [] {
      var P' := AddAt(P, h, w, k, ts[0].0, ts[0].1, e);
      assert (yy, xx) != ts[0] && (yy, xx) !in ts[1..];
      AddAllFrame(P', h, w, k, ts[1..], e, yy, xx);
    }
  }

  /** Each target adds `e[c]` to the total of component `c`. */
  lemma {:induction false} MassAddAll(P: seq<seq<seq<real>>>, h: nat, w: nat, k: nat, ts: seq<(nat, nat)>, e: seq<real>, c: nat)
    requires IsVolume(P, h, w, k) && InBounds(ts, h, w) && |e| == k && c < k
    ensures Has(P, c) && Has(AddAll(P, h, w, k, ts, e), c)
    ensures Mass(AddAll(P, h, w, k, ts, e), c) == Mass(P, c) + Times(|ts|, e[c])
    decreases |ts|
  {
    assert Has(P, c);
    if ts != [] {
      var P' := AddAt(P, h, w, k, ts[0].0, ts[0].1, e);
      MassAddAt(P, h, w, k, ts[0].0, ts[0].1, e, c);
      MassAddAll(P', h, w, k, ts[1..], e, c);
    }
  }

  /** When no target repeats, every target receives exactly `e`. */
  lemma {:induction false} AddAllAt(P: seq<seq<seq<real>>>, h: nat, w: nat, k: nat, ts: seq<(nat, nat)>, e: seq<real>, i: nat)
    requires IsVolume(P, h, w, k) && InBounds(ts, h, w) && |e| == k
    requires NoRepeats(ts) && i < |ts|
    ensures AddAll(P, h, w, k, ts, e)[ts[i].0][ts[i].1] == Add(P[ts[i].0][ts[i].1], e)
    decreases |ts|
  {
    var P' := AddAt(P, h, w, k, ts[0].0, ts[0].1, e);
    assert AddAll(P, h, w, k, ts, e) == AddAll(P', h, w, k, ts[1..], e);
    if i == 0 {
      assert ts[0] !in ts[1..] by {
        forall j | 0 <= j < |ts| - 1
          ensures ts[1..][j] != ts[0]
        {
          assert ts[1..][j] == ts[j + 1];
        }
      }
      AddAllFrame(P', h, w, k, ts[1..], e, ts[0].0, ts[0].1);
    } else {
      assert NoRepeats(ts[1..]) by {
        forall a, b | 0 <= a < b < |ts| - 1
          ensures ts[1..][a] != ts[1..][b]
        {
          assert ts[1..][a] == ts[a + 1] && ts[1..][b] == ts[b + 1];
        }
      }
      assert ts[1..][i - 1] == ts[i] && ts[i] != ts[0];
      AddAllAt(P', h, w, k, ts[1..], e, i - 1);
    }
  }
}

=== FILE: settings.dfy ===
/** `Pyx.__init__` argument validation, `Pyx._get_size` and the checks at the
    start of `Pyx.transform`. */
module Settings {
  import opened Wrappers

  /** A Python number passed as an argument: an `int` or a `float`. */
  datatype Number = Int(i: int) | Float(f: real) {

    function Value(): real {
      match this
      case Int(i) => i as real
      case Float(f) => f
    }

    /** Python's `int(x)`: truncation toward zero. */
    function Trunc(): (t: int)
      ensures Value() >= 0.0 ==> t as real <= Value() < t as real + 1.0
    {
      match this
      case Int(i) => i
      case Float(f) => if f >= 0.0 then f.Floor else -((-f).Floor)
    }
  }

  /** The `palette` argument: a number of colours to find, or a list of colours. */
  datatype PaletteArg<C> = Count(n: Number) | Listed(entries: seq<C>)

  /** The `upscale` argument: one factor for both axes, or a list/tuple. */
  datatype UpscaleArg = Scalar(u: Number) | Pair(us: seq<Number>)

  /** The dithering algorithms `transform` dispatches on. */
  datatype Dither = NoDither | Naive | Bayer | Floyd | Atkinson

  /** The keyword arguments of `Pyx(...)`; `None` is `Option.None`. */
  datatype Args<C> = Args(
    height: Option<Number>, width: Option<Number>, factor: Option<Number>,
    upscale: UpscaleArg, depth: Number, palette: PaletteArg<C>,
    dither: Option<string>, sobel: Number, alpha: real, boost: bool)

  /** The defaults of `Pyx.__init__`. */
  function DefaultArgs<C>(): Args<C> {
    Args(None, None, None, Scalar(Int(1)), Int(1), Count(Int(8)),
         Some("none"), Int(3), 0.6, true)
  }

  /** The state a successfully constructed `Pyx` holds. `depthWarning` is the
      "Depth too high" warning, raised as a flag. */
  datatype Config<C> = Config(
    height: Option<int>, width: Option<int>, factor: Option<int>,
    upscale: (Number, Number), depth: int, depthWarning: bool,
    palette: PaletteArg<C>, dither: Dither, sobel: int, alpha: real, boost: bool)

  /** The `ValueError`s and failed `assert`s of the constructor, in the order the
      constructor checks them. */
  datatype ConfigError =
    | GeometryConflict | BadHeight | BadWidth | BadFactor | BadSobel
    | BadUpscaleLength | BadUpscale | BadDepth | PaletteTooSmall | UnknownDither

  /** The dither names the constructor accepts (besides `None`). */
  const DitherNames: set<string> := {"none", "naive", "bayer", "floyd", "atkinson"}

  predicate AtLeastOne(n: Option<Number>) {
    n.None? || n.value.Value() >= 1.0
  }

  function PaletteSize<C>(p: PaletteArg<C>): real {
    match p
    case Count(n) => n.Value()
    case Listed(e) => |e| as real
  }

  /** Independent statement of which argument combinations are accepted. */
  ghost predicate Acceptable<C>(a: Args<C>) {
    && !((a.height.Some? || a.width.Some?) && a.factor.Some?)
    && AtLeastOne(a.height) && AtLeastOne(a.width) && AtLeastOne(a.factor)
    && a.sobel.Int? && a.sobel.i >= 2
    && (match a.upscale
        case Scalar(u) => u.Value() >= 1.0
        case Pair(us) => |us| == 2 && us[0].Value() >= 1.0 && us[1].Value() >= 1.0)
    && a.depth.Int? && a.depth.i > 0
    && PaletteSize(a.palette) >= 2.0
    && (a.dither.None? || a.dither.value in DitherNames)
  }

  /** Argument check `e` of the constructor fails, judged on its own. */
  predicate Violates<C>(a: Args<C>, e: ConfigError) {
    match e
    case GeometryConflict => (a.height.Some? || a.width.Some?) && a.factor.Some?
    case BadHeight => !AtLeastOne(a.height)
    case BadWidth => !AtLeastOne(a.width)
    case BadFactor => !AtLeastOne(a.factor)
    case BadSobel => !(a.sobel.Int? && a.sobel.i >= 2)
    case BadUpscaleLength => a.upscale.Pair? && |a.upscale.us| != 2
    case BadUpscale =>
      (match a.upscale
       case Scalar(u) => u.Value() < 1.0
       case Pair(us) => |us| == 2 && (us[0].Value() < 1.0 || us[1].Value() < 1.0))
    case BadDepth => !(a.depth.Int? && a.depth.i > 0)
    case PaletteTooSmall => PaletteSize(a.palette) < 2.0
    case UnknownDither => a.dither.Some? && a.dither.value !in DitherNames
  }

  /** Position of check `e` in the constructor. */
  function Rank(e: ConfigError): nat {
    match e
    case GeometryConflict => 0
    case BadHeight => 1
    case BadWidth => 2
    case BadFactor => 3
    case BadSobel => 4
    case BadUpscaleLength => 5
    case BadUpscale => 6
    case BadDepth => 7
    case PaletteTooSmall => 8
    case UnknownDither => 9
  }

  /** Every check the constructor makes before `e` passes. */
  ghost predicate PassesBefore<C>(a: Args<C>, e: ConfigError) {
    forall e' :: Rank(e') < Rank(e) ==> !Violates(a, e')
  }

  /** The invariants every constructed `Pyx` satisfies. */
  ghost predicate Valid<C>(c: Config<C>) {
    && !((c.height.Some? || c.width.Some?) && c.factor.Some?)
    && (c.height.Some? ==> c.height.value >= 1)
    && (c.width.Some? ==> c.width.value >= 1)
    && (c.factor.Some? ==> c.factor.value >= 1)
    && c.sobel >= 2 && c.depth >= 1
    && c.upscale.0.Value() >= 1.0 && c.upscale.1.Value() >= 1.0
    && PaletteSize(c.palette) >= 2.0
  }

  /** The `dither` argument, already checked against the names. */
  function ToDither(d: Option<string>): (r: Dither)
    requires d.None? || d.value in DitherNames
    ensures r == NoDither <==> d.None? || d.value == "none"
    ensures d == Some("naive") ==> r == Naive
    ensures d == Some("bayer") ==> r == Bayer
    ensures d == Some("floyd") ==> r == Floyd
    ensures d == Some("atkinson") ==> r == Atkinson
  {
    if d.None? || d.value == "none" then NoDither
    else if d.value == "naive" then Naive
    else if d.value == "bayer" then Bayer
    else if d.value == "floyd" then Floyd
    else Atkinson
  }

  /** `s` is what `int(n) if n else None` keeps of a non-negative `n`: absent
      exactly when `n` is, and otherwise the whole part of its value. */
  predicate KeepsWholePart(n: Option<Number>, s: Option<int>) {
    (n.None? <==> s.None?) &&
    (n.Some? && s.Some? ==> s.value as real <= n.value.Value() < s.value as real + 1.0)
  }

  /** `int(x) if x else None` for an argument already checked to be >= 1. */
  function TruncOpt(n: Option<Number>): (r: Option<int>)
    ensures AtLeastOne(n) ==> KeepsWholePart(n, r)
  {
    if n.None? then None else Some(n.value.Trunc())
  }

  /** `Pyx.__init__`. */
  function Construct<C>(a: Args<C>): (r: Result<Config<C>, ConfigError>)
    ensures r.Ok? <==> Acceptable(a)
    ensures r.Ok? ==> Valid(r.value)
    ensures r == Err(GeometryConflict) <==> (a.height.Some? || a.width.Some?) && a.factor.Some?
    ensures r == Err(PaletteTooSmall) ==> PaletteSize(a.palette) < 2.0
    ensures r == Err(UnknownDither) ==> a.dither.Some? && a.dither.value !in DitherNames
    ensures r.Ok? ==> r.value.palette == a.palette && r.value.alpha == a.alpha && r.value.boost == a.boost
    ensures r.Ok? && a.upscale.Scalar? ==> r.value.upscale == (a.upscale.u, a.upscale.u)
    ensures r.Ok? && a.upscale.Pair? ==> r.value.upscale == (a.upscale.us[0], a.upscale.us[1])
    ensures r.Ok? ==> (r.value.dither == NoDither <==> a.dither.None? || a.dither.value == "none")
    ensures r.Ok? ==> (r.value.depthWarning <==> a.depth.i > 2)
    ensures r.Ok? ==> KeepsWholePart(a.height, r.value.height) && KeepsWholePart(a.width, r.value.width)
    ensures r.Ok? ==> KeepsWholePart(a.factor, r.value.factor)
    ensures r.Ok? ==> r.value.sobel == a.sobel.i && r.value.depth == a.depth.i
    ensures r.Ok? && a.dither == Some("naive") ==> r.value.dither == Naive
    ensures r.Ok? && a.dither == Some("bayer") ==> r.value.dither == Bayer
    ensures r.Ok? && a.dither == Some("floyd") ==> r.value.dither == Floyd
    ensures r.Ok? && a.dither == Some("atkinson") ==> r.value.dither == Atkinson
  {
    if (a.width.Some? || a.height.Some?) && a.factor.Some? then Err(GeometryConflict)
    else if !AtLeastOne(a.height) then Err(BadHeight)
    else if !AtLeastOne(a.width) then Err(BadWidth)
    else if !AtLeastOne(a.factor) then Err(BadFactor)
    else if !(a.sobel.Int? && a.sobel.i >= 2) then Err(BadSobel)
    else if a.upscale.Pair? && |a.upscale.us| != 2 then Err(BadUpscaleLength)
    else if a.upscale.Pair? && !(a.upscale.us[0].Value() >= 1.0 && a.upscale.us[1].Value() >= 1.0) then Err(BadUpscale)
    else if a.upscale.Scalar? && !(a.upscale.u.Value() >= 1.0) then Err(BadUpscale)
    else if !(a.depth.Value() > 0.0 && a.depth.Int?) then Err(BadDepth)
    else if PaletteSize(a.palette) < 2.0 then Err(PaletteTooSmall)
    else if !(a.dither.None? || a.dither.value in DitherNames) then Err(UnknownDither)
    else
      var up := if a.upscale.Scalar? then (a.upscale.u, a.upscale.u) else (a.upscale.us[0], a.upscale.us[1]);
      Ok(Config(TruncOpt(a.height), TruncOpt(a.width), TruncOpt(a.factor),
                up, a.depth.i, a.depth.i > 2, a.palette, ToDither(a.dither),
                a.sobel.i, a.alpha, a.boost))
  }

  /** The constructor raises exactly the first check that fails, in source
      order. */
  lemma ConstructReportsFirstFailure<C>(a: Args<C>, e: ConfigError)
    ensures Construct(a) == Err(e) <==> Violates(a, e) && PassesBefore(a, e)
  {
    if Violates(a, e) && PassesBefore(a, e) {
      assert Rank(e) > 0 ==> !Violates(a, GeometryConflict);
      assert Rank(e) > 1 ==> !Violates(a, BadHeight);
      assert Rank(e) > 2 ==> !Violates(a, BadWidth);
      assert Rank(e) > 3 ==> !Violates(a, BadFactor);
      assert Rank(e) > 4 ==> !Violates(a, BadSobel);
      assert Rank(e) > 5 ==> !Violates(a, BadUpscaleLength);
      assert Rank(e) > 6 ==> !Violates(a, BadUpscale);
      assert Rank(e) > 7 ==> !Violates(a, BadDepth);
      assert Rank(e) > 8 ==> !Violates(a, PaletteTooSmall);
    }
    if Construct(a) == Err(e) {
      forall e' | Rank(e') < Rank(e)
        ensures !Violates(a, e')
      {
      }
    }
  }

  /** The arguments are accepted exactly when no check fails. */
  lemma AcceptableIffNoFailure<C>(a: Args<C>)
    ensures Acceptable(a) <==> forall e :: !Violates(a, e)
  {
    if !Acceptable(a) {
      var e :| Violates(a, e) by {
        if (a.height.Some? || a.width.Some?) && a.factor.Some? { assert Violates(a, GeometryConflict); }
        else if !AtLeastOne(a.height) { assert Violates(a, BadHeight); }
        else if !AtLeastOne(a.width) { assert Violates(a, BadWidth); }
        else if !AtLeastOne(a.factor) { assert Violates(a, BadFactor); }
        else if !(a.sobel.Int? && a.sobel.i >= 2) { assert Violates(a, BadSobel); }
        else if a.upscale.Pair? && |a.upscale.us| != 2 { assert Violates(a, BadUpscaleLength); }
        else if !(a.depth.Int? && a.depth.i > 0) { assert Violates(a, BadDepth); }
        else if PaletteSize(a.palette) < 2.0 { assert Violates(a, PaletteTooSmall); }
        else if !(a.dither.None? || a.dither.value in DitherNames) { assert Violates(a, UnknownDither); }
        else { assert Violates(a, BadUpscale); }
      }
    }
  }

  /** The defaults are accepted. */
  lemma DefaultsAccepted<C>()
    ensures Construct(DefaultArgs<C>()).Ok?
    ensures Construct(DefaultArgs<C>()).value.upscale == (Int(1), Int(1))
    ensures Construct(DefaultArgs<C>()).value.dither == NoDither
  {
    assert "none" in DitherNames;
  }

  /** `Pyx._get_size(oh, ow)`. The height-only and width-only branches use
      exact rational arithmetic in place of the source's float division. */
  function GetSize<C>(c: Config<C>, oh: nat, ow: nat): (r: (nat, nat))
    requires Valid(c) && oh >= 1 && ow >= 1
    ensures c.height.Some? && c.width.Some? ==> r == (c.height.value, c.width.value)
    ensures c.height.Some? && c.width.None? ==>
      r.0 == c.height.value && IsFloorDiv(r.1, c.height.value * ow, oh)
    ensures c.height.None? && c.width.Some? ==>
      r.1 == c.width.value && IsFloorDiv(r.0, c.width.value * oh, ow)
    ensures c.factor.Some? ==>
      IsFloorDiv(r.0, oh, c.factor.value) && IsFloorDiv(r.1, ow, c.factor.value)
    ensures c.height.None? && c.width.None? && c.factor.None? ==> r == (oh, ow)
  {
    if c.height.Some? && c.width.Some? then (c.height.value, c.width.value)
    else if c.height.Some? then
      (c.height.value, ScaledFloor(c.height.value, oh, ow))
    else if c.width.Some? then
      (ScaledFloor(c.width.value, ow, oh), c.width.value)
    else if c.factor.Some? then
      (FloorDiv(oh, c.factor.value), FloorDiv(ow, c.factor.value))
    else (oh, ow)
  }

  /** `q` is `num` divided by `den`, rounded down. */
  predicate IsFloorDiv(q: int, num: int, den: int) {
    q * den <= num < (q + 1) * den
  }

  /** Python's `a // b` on nonnegative integers. */
  function FloorDiv(a: nat, b: nat): (q: nat)
    requires b >= 1
    ensures IsFloorDiv(q, a, b)
  {
    DivBounds(a, b);
    a / b
  }

  /** `int(target / original * other)`, with the quotient taken exactly. */
  function ScaledFloor(target: nat, original: nat, other: nat): (r: nat)
    requires original >= 1
    ensures IsFloorDiv(r, target * other, original)
  {
    FloorDiv(target * other, original)
  }

  lemma DivBounds(a: nat, b: nat)
    requires b >= 1
    ensures IsFloorDiv(a / b, a, b)
  {
    assert a == (a / b) * b + a % b;
    assert (a / b + 1) * b == (a / b) * b + b;
  }

  /** The errors `transform` raises before doing any work. */
  datatype TransformError = NotFitted | TooManyColors

  /** The two assertions at the top of `Pyx.transform`: the model must be
      fitted, and the image must have more pixels than palette entries. */
  function CheckTransform<C>(c: Config<C>, fitted: bool, h: nat, w: nat): (r: Result<(nat, nat), TransformError>)
    requires Valid(c)
    ensures r.Ok? <==> fitted && (h * w) as real > PaletteSize(c.palette)
    ensures !fitted ==> r == Err(NotFitted)
    ensures fitted && !((h * w) as real > PaletteSize(c.palette)) ==> r == Err(TooManyColors)
    ensures r.Ok? ==> h >= 1 && w >= 1 && r.value == GetSize(c, h, w)
  {
    if !fitted then Err(NotFitted)
    else if !((h * w) as real > PaletteSize(c.palette)) then Err(TooManyColors)
    else
      assert h * w >= 2;
      Ok(GetSize(c, h, w))
  }

  /** `_warn_on_dither_with_alpha(d)`: only for images with an alpha channel
      and the spatial dithering modes. */
  predicate WarnDitherWithAlpha<C>(c: Config<C>, channels: nat) {
    channels > 3 && c.dither in {Bayer, Floyd, Atkinson}
  }
}

=== FILE: transform.dfy ===
/** How `Pyx.transform` turns the index images of the Floyd-like and
    Atkinson-like scans into colours (`self.colors[res.reshape(h * w)]`),
    and how the flat colour list becomes the returned image
    (`np.reshape` to `h`×`w`, then `np.repeat` by the upscale factors). */
module Transform {
  import opened Arith
  import opened Vectors
  import opened Raster
  import Padding
  import Assembly
  import Floyd
  import Atkinson

  /** Flattening an index image whose entries are below `k` gives indices
      below `k`. */
  lemma FlatIndexes<C>(res: seq<seq<nat>>, h: nat, w: nat, colors: seq<C>)
    requires Padding.IsGrid(res, h, w)
    requires forall y, x :: 0 <= y < h && 0 <= x < w ==> res[y][x] < |colors|
    ensures Assembly.Indexes(Assembly.Flatten(res, h, w), colors)
  {
    var flat := Assembly.Flatten(res, h, w);
    forall j | 0 <= j < |flat|
      ensures flat[j] < |colors|
    {
      RowBound(j, h, w);
      Split(j, w);
    }
  }

  /** Position of pixel `(y, x)` in the row-major list of a `w`-wide image. */
  function FlatIndex(w: nat, y: nat, x: nat): nat {
    y * w + x
  }

  /** `self.colors[res.reshape(h * w)]`: pixel `(y, x)` of the index image
      becomes entry `y * w + x` of the colour list, and that entry is the
      palette colour the pixel's index names. */
  method Paint<C>(res: seq<seq<nat>>, h: nat, w: nat, colors: seq<C>) returns (out: seq<C>)
    requires Padding.IsGrid(res, h, w)
    requires forall y, x :: 0 <= y < h && 0 <= x < w ==> res[y][x] < |colors|
    ensures |out| == h * w
    ensures forall j :: 0 <= j < |out| ==> out[j] in colors
    ensures forall y, x :: 0 <= y < h && 0 <= x < w ==>
      FlatIndex(w, y, x) < |out| && out[FlatIndex(w, y, x)] == colors[res[y][x]]
  {
    FlatIndexes(res, h, w, colors);
    var flat := Assembly.Flatten(res, h, w);
    out := Assembly.MapColors(flat, colors);
    Assembly.MapColorsInPalette(flat, colors);
    forall y, x | 0 <= y < h && 0 <= x < w
      ensures FlatIndex(w, y, x) < |out| && out[FlatIndex(w, y, x)] == colors[res[y][x]]
    {
      Assembly.FlattenAt(res, h, w, y, x);
    }
  }

  /** The Floyd-like branch, from the per-colour maps to the flat colour
      list, together with the final maps. The maps are those the reference
      walk leaves, pixel `(y, x)` gets the palette colour with the most mass
      in its final maps, and the first pixel, which no diffusion reaches,
      gets its most probable colour. */
  method FloydColors<C>(P0: seq<seq<seq<real>>>, h: nat, w: nat, colors: seq<C>) returns (out: seq<C>, P: seq<seq<seq<real>>>)
    requires IsVolume(P0, h, w, |colors|) && h >= 1 && w >= 1 && |colors| >= 1
    ensures |out| == h * w
    ensures forall j :: 0 <= j < |out| ==> out[j] in colors
    ensures IsVolume(P, h, w, |colors|) && P == Floyd.Walk(P0, h, w, |colors|, h - 1)
    ensures forall y, x :: 0 <= y < h && 0 <= x < w ==>
      FlatIndex(w, y, x) < |out| && out[FlatIndex(w, y, x)] == colors[ArgMax(P[y][x])]
    ensures out[0] == colors[ArgMax(P0[0][0])]
  {
    var res;
    res, P := Floyd.Scan(P0, h, w, |colors|);
    out := Paint(res, h, w, colors);
  }

  /** The Atkinson-like branch, from the padded buffer to the flat colour
      list, together with the final buffer. The buffer is the one the
      reference walk leaves, and pixel `(y, x)` gets the colour of the
      prediction for its final buffer colour. */
  method AtkinsonColors<C>(B0: seq<seq<seq<real>>>, h: nat, w: nat, means: seq<seq<real>>,
                           classify: seq<real> -> nat, colors: seq<C>) returns (out: seq<C>, B: seq<seq<seq<real>>>)
    requires IsVolume(B0, h + 2, w + 3, 3) && Atkinson.ValidModel(means, classify) && |colors| == |means|
    ensures |out| == h * w
    ensures forall j :: 0 <= j < |out| ==> out[j] in colors
    ensures IsVolume(B, h + 2, w + 3, 3) && B == Atkinson.Walk(B0, h, w, means, classify, h)
    ensures forall y, x :: 0 <= y < h && 0 <= x < w ==>
      FlatIndex(w, y, x) < |out| && out[FlatIndex(w, y, x)] == colors[classify(B[y][x + 1])]
  {
    var res;
    res, B := Atkinson.Scan(B0, h, w, means, classify);
    out := Paint(res, h, w, colors);
  }

  /** `np.reshape(X_, (h, w, 3))` followed by the upscale repeat. */
  function Finish<C>(flat: seq<C>, h: nat, w: nat, u0: nat, u1: nat): (r: seq<seq<C>>)
    requires |flat| == h * w && u0 >= 1 && u1 >= 1
    ensures Padding.IsGrid(r, h * u0, w * u1)
  {
    Assembly.Upscale(Assembly.Reshape(flat, h, w), h, w, u0, u1)
  }

  /** Output pixel `(i, j)` of the finished image is flat pixel
      `(i div u0) * w + j div u1`. */
  lemma FinishAt<C>(flat: seq<C>, h: nat, w: nat, u0: nat, u1: nat, i: nat, j: nat)
    requires |flat| == h * w && u0 >= 1 && u1 >= 1 && i < h * u0 && j < w * u1
    ensures FlatIndex(w, i / u0, j / u1) < |flat|
    ensures Finish(flat, h, w, u0, u1)[i][j] == flat[FlatIndex(w, i / u0, j / u1)]
  {
    Assembly.UpscaleAt(Assembly.Reshape(flat, h, w), h, w, u0, u1, i, j);
    Assembly.InRange(h, w, i / u0, j / u1);
  }
}

=== FILE: vectors.dfy ===
/** Operations on per-pixel vectors (probabilities over palette entries, colour channels). */
module Vectors {

  /** Index of the first maximal entry, the way `np.argmax` breaks ties. */
  function ArgMax(v: seq<real>): (r: nat)
    requires |v| > 0
    ensures r < |v|
    ensures forall j :: 0 <= j < |v| ==> v[j] <= v[r]
    ensures forall j :: 0 <= j < r ==> v[j] < v[r]
    decreases |v|
  {
    if |v| == 1 then 0
    else
      var r' := ArgMax(v[..|v| - 1]);
      if v[|v| - 1] > v[r'] then |v| - 1 else r'
  }

  /** `v` and `w` rank their entries identically. */
  ghost predicate SameOrder(v: seq<real>, w: seq<real>) {
    |v| == |w| && forall i, j :: 0 <= i < |v| && 0 <= j < |v| ==> (v[i] < v[j] <==> w[i] < w[j])
  }

  /** The argmax only depends on how the entries compare. */
  lemma {:induction false} SameOrderSameArgMax(v: seq<real>, w: seq<real>)
    requires |v| > 0 && SameOrder(v, w)
    ensures ArgMax(v) == ArgMax(w)
    decreases |v|
  {
    if |v| > 1 {
      var n := |v| - 1;
      assert SameOrder(v[..n], w[..n]);
      SameOrderSameArgMax(v[..n], w[..n]);
    }
  }

  /** `v * c` component-wise. */
  function Scale(v: seq<real>, c: real): (r: seq<real>)
    ensures |r| == |v|
  {
    seq(|v|, i requires 0 <= i < |v| => v[i] * c)
  }

  lemma ScaleKeepsOrder(v: seq<real>, c: real)
    requires c > 0.0
    ensures SameOrder(v, Scale(v, c))
  {
    var w := Scale(v, c);
    forall i, j | 0 <= i < |v| && 0 <= j < |v|
      ensures v[i] < v[j] <==> w[i] < w[j]
    {
      if v[i] < v[j] {
        MulStrict(v[i], v[j], c);
      } else {
        MulMonotone(v[j], v[i], c);
      }
    }
  }

  /** Dividing by a positive constant (as `probs[:, y, x] / 16.` does) picks
      the same argmax. */
  lemma ArgMaxScale(v: seq<real>, c: real)
    requires |v| > 0 && c > 0.0
    ensures ArgMax(Scale(v, c)) == ArgMax(v)
  {
    ScaleKeepsOrder(v, c);
    SameOrderSameArgMax(v, Scale(v, c));
  }

  lemma MulMonotone(x: real, y: real, c: real)
    requires x <= y && c > 0.0
    ensures x * c <= y * c
  {
    assert y * c - x * c == (y - x) * c;
  }

  lemma MulStrict(x: real, y: real, c: real)
    requires x < y && c > 0.0
    ensures x * c < y * c
  {
    assert y * c - x * c == (y - x) * c;
  }

  /** `v + e` component-wise. */
  function Add(v: seq<real>, e: seq<real>): (r: seq<real>)
    requires |e| == |v|
    ensures |r| == |v|
  {
    seq(|v|, i requires 0 <= i < |v| => v[i] + e[i])
  }

  /** `a - b` component-wise. */
  function Sub(a: seq<real>, b: seq<real>): (r: seq<real>)
    requires |a| == |b|
    ensures |r| == |a|
  {
    seq(|a|, i requires 0 <= i < |a| => a[i] - b[i])
  }
}

=== FILE: wrappers.dfy ===
/** Failure-carrying result types used by the model of the Pyx transformer. */
module Wrappers {

  /** Python's `None` or a present value. */
  datatype Option<+T> = None | Some(value: T)

  /** The outcome of a call that may raise: a value, or the raised error. */
  datatype Result<+R, +E> = Ok(value: R) | Err(error: E)
}
